=== FILE: README.md ===
# Tasky todo client — a Dafny model of its store, cookie codec and input checks

Tasky is a React todo list that works in two modes. A signed-in user's
todos live in a remote table. A guest's todos live in a browser cookie
named `guestTodos`, which expires after seven days. This project models the
client logic behind that, as immutable datatypes and pure functions:

- **`App`** (`app.dfy`): the in-memory list, the `isGuestMode` state and
  the `isGuest` entry of `localStorage`. It covers the effect that picks
  the mode when the signed-in user changes, `addTodo`, `updateTodo` and
  `deleteTodo`, and the guest sign-in, sign-out and back-to-login
  transitions. Each handler has three branches: signed in, guest, and
  neither. The remote store is an oracle. Each handler records the requests
  it sends (`Step.calls`) and takes the reply as a parameter. A reply is
  applied only after it has arrived. There is no optimistic update, no
  rollback snapshot, no priority and no sorting.
- **`TodoList`** (`todo_list.dfy`): the `{id, text, completed}` record and
  the three list transforms: append, replace by id and filter by id.
- **`Cookie`** (`cookie.dfy`): `getCookie` over a `;`-separated header,
  plus the strings that `setCookie` and `deleteCookie` assign.
- **`Json`** (`json.dfy`): `JSON.stringify` of a todo list, and a parser
  that reads that text back.
- **`GuestStore`** (`guest_store.dfy`): `saveGuestTodos` and the read in
  `loadGuestTodos`, both as the source writes them (`WriteAsWritten`,
  `ReadAsWritten`: the raw JSON text is the cookie value) and corrected
  (`Write`, `Read`: `%` and `;` escaped, see Findings). The codec `Raw` or
  `Escaped` selects one of the two pairs.
- **`Auth`** (`auth.dfy`): `validateEmail`, the ordered checks and the
  error mapping of `handleSubmit`, and `handleGuestLogin`.
- **`TodoItem`** and **`TodoForm`** (`todo_item.dfy`, `todo_form.dfy`):
  the edit and submit state machines of the two components.
- **`Text`** (`text.dfy`) and **`Wrappers`** (`wrappers.dfy`): the
  JavaScript string primitives (white space, `trim`, `startsWith`,
  `includes`, UTF-16 `length`) and `Option`.

Some things are parameters rather than computed. These are the browser
clock (the expiry text of `setCookie`), `Date.now()` (the new record's id),
the remote store's replies and the authentication service's replies. The
cookie header is modelled as the string the browser hands back to
`getCookie`, which is taken to be what `setCookie` last wrote.

`App.Store` carries the codec the guest list goes through. With `Raw` the
model is the program as written: the cookie value is the raw JSON text, and
it reads back as the list only while no text holds a `;`. With `Escaped` it
is the program with the correction of the Findings section.

Some behaviour of the code worth knowing:
- The code applies no optimistic change and keeps no rollback snapshot.
- The anonymous branch of the mode effect does not clear the list.
- Back to login clears neither the flag nor the list.
- A failed list fetch keeps the list that was already shown.
- A corrupt guest cookie makes `JSON.parse` throw. The model reports this
  as `Step.thrown` and does not reset the cookie.
- Records have no priority and no creation time.

## Model

| member | source | states |
|---|---|---|
| App.ResolveMode | src/App.js:17-33 | A present user always wins over the stored flag: guest mode off, flag removed, the list request sent, and the list replaced only if the fetch succeeds. With no user and flag `'true'`, the app enters guest mode and loads the guest list. Otherwise guest mode is off and the flag is removed. Afterwards, guest mode holds exactly when the flag is `'true'`, and never together with a user. |
| App.ResolveModeSettles | src/App.js:17-33 | Running the effect again with the same user leaves the same mode and flag. |
| App.SignInDiscardsGuestList | src/App.js:23-27 | Signing in from guest mode to an account with no records shows an empty list. The guest records are not merged in. |
| App.LoadGuestTodos | src/App.js:42-47 | A stored list replaces the in-memory list. With no cookie, or an empty value, the list is kept rather than cleared. A value that does not parse throws and leaves the whole state unchanged. |
| App.SaveGuestTodos | src/App.js:49-51 | Together with the `setTodos(updatedTodos)` that precedes each call (src/App.js:92, 118 and 140), the list becomes the in-memory list and the cookie is the codec's write of it (as written: `setCookie` of the raw JSON text). Whenever the codec carries the list, the cookie reads back as exactly that list. |
| App.HandleGuestSignIn | src/App.js:35-40 | Guest mode is on and the stored list is loaded. It throws exactly when the cookie's value does not parse; the flag is set whenever loading returns normally and is left as it was when it throws. The cookie and the codec are untouched. |
| App.GuestEntryInSync | src/App.js:35-40 | Entering guest mode on a cookie that loads a list the codec carries shows that list, with the cookie reading back as it. |
| App.GuestSessionWritesThrough | src/App.js:35-143 | After guest entry on such a cookie, any sequence of guest mutations the codec carries keeps the cookie reading back as the in-memory list. |
| App.AddTodo | src/App.js:71-96 | A blank text changes nothing and sends nothing. Signed in: one insert is sent, and on success the returned record is appended; on failure nothing changes. Guest: `{id, text, completed: false}` is appended with the untrimmed text, the cookie is the codec's write of the new list, and it reads back as that list whenever the codec carries it. Otherwise nothing happens. The list only ever grows by one record at its end. |
| App.UpdateTodo | src/App.js:98-122 | Signed in: one update request is sent, and the list is replaced by id on success or unchanged on failure. Guest: the list is replaced by id and the cookie is the codec's write of the new list, reading back as it whenever the codec carries it. The length never changes. |
| App.DeleteTodo | src/App.js:124-144 | Signed in: one delete request is sent, and the id's records are removed on success or nothing changes on failure. Guest: the records are removed and the cookie is the codec's write of the new list, reading back as it whenever the codec carries it. No record is ever added. |
| App.HandleSignOut | src/App.js:146-152 | Signs out, empties the list, turns guest mode off and removes the flag, whatever its stale value. |
| App.SignOutThenEffect | src/App.js:146-152 | The effect that runs after sign-out keeps the empty list and stays out of guest mode. |
| App.HandleBackToLogin | src/App.js:154-157 | Only guest mode is turned off. The list, the flag and the cookie are untouched. |
| App.BackToLoginReturnsToGuestOnReload | src/App.js:154-157 | Because the flag is kept, the next mode effect puts the visitor straight back into guest mode. |
| App.GuestActionWritesThrough | src/App.js:89-143 | One guest add, update or delete that brings in no text the codec cannot carry keeps guest mode and the codec, and leaves the cookie reading back as the new in-memory list. As written, that means a text without `;`. |
| App.GuestWriteThrough | src/App.js:89-143 | Over any sequence of guest adds, updates and deletes whose texts the codec carries, the cookie keeps reading back as exactly the in-memory list. As written, this holds only while no text holds a `;`. |
| App.EscapedWriteThrough | src/App.js:89-143 | With the escaped cookie value, the cookie keeps reading back as the in-memory list over every sequence of guest mutations, whatever the texts hold. |
| App.RawSemicolonBreaksReload | src/App.js:42-51 | As written, adding the guest todo `a;b` to an empty guest list stores a cookie on which the next `loadGuestTodos` throws. |
| App.FailedRequestChangesNothing | src/App.js:76-137 | A failed remote insert, update or delete leaves the state exactly as it was. |
| TodoList.ReplaceById | src/App.js:109-111 | The length is kept. Every record with the updated id becomes the updated record, and every other record is unchanged. |
| TodoList.ReplaceAbsentIsIdentity | src/App.js:115-117 | Updating an id the list does not hold leaves the list unchanged. |
| TodoList.RemoveById | src/App.js:135 | Keeps exactly the records whose id differs, in their original relative order. It loses as many records as carry the id. |
| TodoList.RemoveIdempotent | src/App.js:139 | Deleting the same id twice is the same as deleting it once. |
| TodoList.RemoveAppend | src/App.js:139 | Filtering a concatenation filters each part and keeps their order. |
| TodoList.RemoveAfterReplace | src/App.js:115-117 | Replacing by id touches no record outside that id. |
| Cookie.GetCookie | src/utils/cookie.js:2-11 | Returns null exactly when no `;`-piece of the header, trimmed, starts with `name=`. Otherwise it returns the text after `name=` in the first trimmed piece that does. |
| Cookie.SetCookie | src/utils/cookie.js:13-18 | When name, value and expiry hold no `;`, the written header splits into exactly three pieces: `name=value`, `expires=<date>` and `path=/`. |
| Cookie.DeleteCookie | src/utils/cookie.js:20-22 | When the name holds no `;`, the written header splits into exactly `name=` (the name with an empty value), ` expires=Thu, 01 Jan 1970 00:00:00 UTC` (the past expiry that makes a browser drop the cookie), ` path=/` and an empty last piece. |
| Cookie.Split | src/utils/cookie.js:3 | The pieces hold no `;`, and joining them with `;` gives back the header. |
| Cookie.SplitJoin | src/utils/cookie.js:3 | Splitting undoes joining when no piece holds `;`. |
| Cookie.FirstMatch | src/utils/cookie.js:4-10 | Over the trimmed pieces of the header: returns null exactly when no piece starts with `name=`. Otherwise it returns the text after `name=` of the first piece that does. |
| Cookie.LeadingSegment | src/utils/cookie.js:3-7 | When the header begins with the piece `name=value`, `getCookie(name)` returns `value` without its trailing white space. Leading white space is kept. |
| Cookie.ReadAfterSet | src/utils/cookie.js:17 | Reading back a value written by `setCookie` yields the part before its first `;`, without trailing white space. |
| Cookie.SetGetRoundTrip | src/utils/cookie.js:3-17 | The round trip of `setCookie` and `getCookie` is exact if and only if the value has no `;` and no trailing white space. |
| Cookie.ReadAfterDelete | src/utils/cookie.js:21 | `deleteCookie` writes `name=` with an empty value and the 1970 expiry. In the modelled jar, where the header reads back as written, that gives the empty value; a browser drops the expired cookie, and `getCookie` then returns null. |
| Cookie.PrefixOfNameDoesNotMatch | src/utils/cookie.js:6 | Looking up `a` does not match the piece `ab=1`. |
| Cookie.FirstDuplicateWins | src/utils/cookie.js:4-8 | With two `k=` pieces, the first one wins. |
| Cookie.ValueMayContainEquals | src/utils/cookie.js:7 | Everything after the first `name=` is returned, including further `=` signs. |
| Json.ParseSerialise | src/App.js:45-50 | Parsing the JSON text of a list gives back the same list. |
| Json.SurrogatePairEscape | src/App.js:45 | The escapes `\ud83d\ude00` read as the one character U+1F600, as `JSON.parse` reads them. |
| Json.SemicolonInSerialise | src/App.js:50 | The JSON text holds a `;` exactly when some record's text does. |
| GuestStore.WriteAsWritten | src/App.js:49-51 | `getCookie` reads the written cookie back as the JSON text of the list up to its first `;`, without trailing white space. |
| GuestStore.ReadAsWritten | src/App.js:43-45 | A missing cookie or an empty value loads nothing. A list is loaded only from a value that parses to it, and a value that does not parse is where `JSON.parse` throws. |
| GuestStore.AsWrittenKeepsTextIff | src/App.js:43-50 | As written, the cookie holds the JSON text intact exactly when no record's text holds a `;`. |
| GuestStore.AsWrittenRoundTrip | src/App.js:43-50 | As written, a list with no `;` in its texts is read back unchanged. |
| GuestStore.SemicolonCorruptsGuestList | src/App.js:43-50 | As written, the guest list `[{id: 1, text: "a;b"}]` reads back as a value that `JSON.parse` rejects. |
| GuestStore.DecodeEncode | src/App.js:50 | Unescaping the escaped cookie value gives back the JSON text. |
| GuestStore.RoundTrip | src/App.js:43-50 | With the value escaped, every list written is read back unchanged, whatever its texts hold. |
| GuestStore.SaveLoad | src/App.js:43-50 | A list the codec carries (every list when escaped; as written, a list with no `;` in a text) is loaded back as it was saved. |
| Auth.ValidateEmail | src/components/Auth.js:18-21 | An accepted address holds an `@` that is not its first character, a `.` after that `@`, and no white space. |
| Auth.ValidateEmailMatchesPattern | src/components/Auth.js:18-21 | `validateEmail` accepts a string exactly when it has the form `local@d1.d2`, where each part is non-empty and free of white space and `@`. The domain may hold more dots. |
| Auth.AcceptedEmailHasOneAt | src/components/Auth.js:19 | Every accepted address contains exactly one `@`. |
| Auth.SignUpError | src/components/Auth.js:51-59 | `User already registered` is checked first, then `Email rate limit exceeded`, else the message is `Sign up failed: <msg>`. |
| Auth.SignInError | src/components/Auth.js:67-75 | `Invalid login credentials` is checked first, then `Email not confirmed`, else the message is `Sign in failed: <msg>`. |
| Auth.HandleSubmit | src/components/Auth.js:24-87 | `signUp` or `signIn` is reached if and only if both fields are non-empty, the address is valid and the password is at least 8 UTF-16 units long. The first failing check, in that order, names the error. No error is left exactly when the request succeeded. A thrown request gives the generic message. `loading` is false on every exit. |
| Auth.PasswordLengthCountsCodeUnits | src/components/Auth.js:40 | The length check counts UTF-16 code units, so four characters outside the Basic Multilingual Plane count as eight. |
| Auth.HandleGuestLogin | src/components/Auth.js:125-130 | The flag `'true'` is stored before `App` is notified, so it is set even when loading the guest list throws. |
| TodoItem.Mount | src/components/TodoItem.js:5-6 | An item starts out viewing, with the draft equal to the record's text. |
| TodoItem.Edit | src/components/TodoItem.js:8-10 | Edit enters editing mode and keeps the draft. |
| TodoItem.Type | src/components/TodoItem.js:31 | Typing replaces the draft only. |
| TodoItem.Save | src/components/TodoItem.js:12-17 | `onUpdate` fires exactly when the trimmed draft is non-empty, with the record's id and `completed` kept and only `text` replaced by the untrimmed draft; then editing ends, the draft stays and the item's record is unchanged. A blank save fires nothing and stays in editing mode. |
| TodoItem.SavedTextIsNeverBlank | src/components/TodoItem.js:13-14 | A saved edit never carries a blank text. |
| TodoItem.Cancel | src/components/TodoItem.js:19-22 | The draft goes back to the record's text and editing ends. |
| TodoItem.CancelDiscardsDraft | src/components/TodoItem.js:19-22 | After cancelling, whatever was typed is gone when editing starts again. |
| TodoItem.Toggle | src/components/TodoItem.js:41 | The checkbox sends the record with only `completed` negated. |
| TodoItem.ToggleInGuestMode | src/components/TodoItem.js:41 | A toggle delivered to the guest store replaces every record with that id by the item's record with `completed` negated, and leaves the rest of the list untouched. With one record per id, that flips its `completed`. |
| TodoItem.Remove | src/components/TodoItem.js:46 | Delete passes exactly the record's id. |
| TodoForm.Submit | src/components/TodoForm.js:8-17 | A non-blank text is passed to `onAdd` untrimmed, and both the text and the error are cleared. A blank or white-space-only text passes nothing, keeps the text and sets the error. |
| TodoForm.Type | src/components/TodoForm.js:27 | Typing replaces the text and leaves the error. |
| TodoForm.SpacesAreRefused | src/components/TodoForm.js:10-15 | `"   "` is refused. |
| TodoForm.SubmittedTextIsAdded | src/components/TodoForm.js:10-11 | In guest mode, a text the form passes on always gets past the store's blank test, and lands at the end of the list as an open record. |

## Left out

- Supabase client construction, the session listener and the context hook (`src/hooks/useAuth.js`). The signed-in user is a parameter.
- Query details and server behaviour are not modelled. This covers ordering by `created_at`, the shape of the insert response (the inserted record is the oracle's value), and row-level security: the update and delete requests carry only the id.
- Google OAuth initiation and its environment-dependent redirect URL (`handleGoogleSignIn`) are I/O.
- The date arithmetic of `setCookie`, the seven-day lifetime and the browser's expiry enforcement depend on the clock. The expiry is an opaque text parameter.
- The browser's cookie jar is not modelled: other cookies, the merging of several cookies into one header, and the size limits. The header read back is taken to be what was last written.
- JSON beyond the todo list is not modelled. The parser accepts the text `JSON.stringify` writes for a list of `{id, text, completed}` records, and the JSON escapes inside strings, with a surrogate pair written as two `\u` escapes read as one character. It rejects a lone surrogate half written as a `\u` escape, which `JSON.parse` accepts but a string of Unicode characters cannot hold. It also rejects white space between tokens, other field orders, extra fields and non-integer ids, where `JSON.parse` would accept some of them.
- Ids are natural numbers (`Date.now()` and a numeric table key). Their uniqueness is not assumed, because the code does not guarantee it.
- Async interleaving and the stale `todos` closure across awaits are concurrency and are not modelled. So is what React does after an exception escapes an effect or a handler. Each handler runs to completion on its own.
- React rendering, hook batching, the status strings and `console` logging are not modelled. Neither is which buttons are visible in which mode; the handlers are modelled as written, without that guard.
- `String.prototype.toLowerCase` in `validateEmail` is not modelled. It does not change which characters are white space, `@` or `.`.
- `TodoItem` keeps its draft when the parent passes a changed record. Prop changes are not modelled.
- `src/components/Footer.js` is static markup.

## Findings

| source | as written | input that shows it | evidently intended | confidence | as-written member | corrected member |
|---|---|---|---|---|---|---|
| src/App.js:49-51 | `saveGuestTodos` stores the raw `JSON.stringify` text as the cookie value. A `;` ends a cookie value: a browser's `document.cookie` setter (src/utils/cookie.js:17) cuts the value there and reads the rest as attributes, and in the modelled jar, where the header reads back as written, `getCookie` makes the same cut. So any guest todo whose text contains `;` leaves a truncated JSON text behind. The next `loadGuestTodos` (src/App.js:45) then throws, on every page load, until the cookie expires. | a guest list `[{id: 1, text: "a;b", completed: false}]` | the saved guest list reads back as the same list | not executed; relies on the cookie header reading back as written | App.RawSemicolonBreaksReload (with GuestStore.SemicolonCorruptsGuestList and GuestStore.AsWrittenKeepsTextIff) | App.EscapedWriteThrough (with GuestStore.RoundTrip: `%` and `;` escaped in the value; `App` runs on it when `Store.codec` is `Escaped`) |

=== FILE: app.dfy ===
/** The `App` component: the in-memory todo list, the guest-mode state and
    the two browser stores it writes (the `isGuest` entry of
    `localStorage` and the cookie header), the effect that picks the mode
    whenever the signed-in user changes, and the add, update and delete
    handlers with their three branches (signed in, guest, neither).

    The remote store is an oracle: each handler that talks to it records the
    request in `Step.calls` and takes the reply as a parameter. A reply is
    applied only once it has arrived; there is no optimistic update.

    `Store.codec` says how the guest list is put into the cookie: `Raw` is
    the program as written, `Escaped` the corrected cookie value. */
module App {
  import opened Wrappers
  import opened Text
  import opened TodoList
  import GuestStore

  /** The signed-in user the authentication hook reports. */
  datatype User = User(id: string, email: string)

  /** What the remote store answers to one request. */
  datatype Reply<T> = Ok(value: T) | Failed(message: string)

  /** Requests sent to the remote store and the authentication service. */
  datatype Call =
    | Select(owner: string)
    | Insert(owner: string, text: string)
    | Update(id: Id, text: string, completed: bool)
    | Delete(id: Id)
    | SignOut

  /** The state `App` owns: the list and `isGuestMode` (React state), the
      `isGuest` entry of `localStorage` (`None` when removed), and the cookie
      header the guest list is written to, with the codec that writes it. */
  datatype Store = Store(todos: seq<Todo>, guestMode: bool, guestFlag: Option<string>, cookie: string,
                         codec: GuestStore.Codec)

  /** The outcome of one handler: the state after it, the requests it sent,
      and whether an exception escaped it (only `JSON.parse` throws). */
  datatype Step = Step(store: Store, calls: seq<Call>, thrown: bool)

  /** The value `handleGuestLogin` stores under `isGuest`. */
  const GuestFlagOn := "true"

  /** The list as the browser would read it back from the cookie. */
  predicate WrittenThrough(s: Store) {
    GuestStore.Load(s.codec, s.cookie) == GuestStore.Loaded(s.todos)
  }

  /** `loadGuestTodos`: a stored list replaces the in-memory one; with no
      stored list the in-memory one is kept (not cleared); a corrupt one
      throws and changes nothing. */
  function LoadGuestTodos(s: Store): (r: Step)
    ensures r.calls == []
    ensures r.store.guestMode == s.guestMode && r.store.guestFlag == s.guestFlag
    ensures r.store.cookie == s.cookie && r.store.codec == s.codec
    ensures GuestStore.Load(s.codec, s.cookie).Loaded? ==>
              !r.thrown && r.store.todos == GuestStore.Load(s.codec, s.cookie).todos
    ensures GuestStore.Load(s.codec, s.cookie).Absent? ==> !r.thrown && r.store == s
    ensures GuestStore.Load(s.codec, s.cookie).Corrupt? ==> r.thrown && r.store == s
    ensures r.thrown <==> GuestStore.Load(s.codec, s.cookie).Corrupt?
  {
    match GuestStore.Load(s.codec, s.cookie)
    case Absent => Step(s, [], false)
    case Loaded(todos) => Step(s.(todos := todos), [], false)
    case Corrupt => Step(s, [], true)
  }

  /** `saveGuestTodos(todos)`; `expiry` is the clock-derived expiry text. */
  function SaveGuestTodos(s: Store, todos: seq<Todo>, expiry: string): (r: Store)
    ensures r.todos == todos && r.cookie == GuestStore.Save(s.codec, todos, expiry)
    // the cookie reads back as the list whenever the codec carries it
    ensures GuestStore.Carries(s.codec, todos) ==> WrittenThrough(r)
    ensures r.guestMode == s.guestMode && r.guestFlag == s.guestFlag && r.codec == s.codec
  {
    GuestStore.SaveLoad(s.codec, todos, expiry);
    s.(todos := todos, cookie := GuestStore.Save(s.codec, todos, expiry))
  }

  /** The effect run whenever `user` changes. `fetched` is the remote
      store's answer to the list request sent when a user is present. */
  function ResolveMode(s: Store, user: Option<User>, fetched: Reply<seq<Todo>>): (r: Step)
    // a present user wins over whatever flag is stored
    ensures user.Some? ==>
              && !r.store.guestMode && r.store.guestFlag.None? && !r.thrown
              && r.calls == [Select(user.value.id)]
              && r.store.todos == (if fetched.Ok? then fetched.value else s.todos)
    ensures user.None? && s.guestFlag == Some(GuestFlagOn) ==>
              r.store.guestMode && r.store.guestFlag == s.guestFlag && r == LoadGuestTodos(s.(guestMode := true))
    ensures user.None? && s.guestFlag != Some(GuestFlagOn) ==>
              r == Step(s.(guestMode := false, guestFlag := None), [], false)
    // at most one backing store is in charge afterwards
    ensures !(user.Some? && r.store.guestMode)
    ensures r.store.guestMode <==> r.store.guestFlag == Some(GuestFlagOn)
    ensures r.store.cookie == s.cookie && r.store.codec == s.codec
  {
    if user.None? && s.guestFlag == Some(GuestFlagOn) then
      LoadGuestTodos(s.(guestMode := true))
    else if user.Some? then
      var todos := if fetched.Ok? then fetched.value else s.todos;
      Step(s.(todos := todos, guestMode := false, guestFlag := None), [Select(user.value.id)], false)
    else
      Step(s.(guestMode := false, guestFlag := None), [], false)
  }

  /** `handleGuestSignIn`: enter guest mode, load the stored list, then set
      the flag; the flag is not reached when loading throws. */
  function HandleGuestSignIn(s: Store): (r: Step)
    ensures r.store.guestMode && r.calls == []
    ensures !r.thrown ==> r.store.guestFlag == Some(GuestFlagOn)
    ensures r.thrown ==> r.store.guestFlag == s.guestFlag
    ensures r.store.todos == LoadGuestTodos(s).store.todos
    ensures r.thrown <==> GuestStore.Load(s.codec, s.cookie).Corrupt?
    ensures r.store.cookie == s.cookie && r.store.codec == s.codec
  {
    var loaded := LoadGuestTodos(s.(guestMode := true));
    if loaded.thrown then loaded
    else Step(loaded.store.(guestFlag := Some(GuestFlagOn)), [], false)
  }

  /** `addTodo(text)`. `id` stands for `Date.now()`, `inserted` for the
      remote store's answer to the insert. */
  function AddTodo(s: Store, user: Option<User>, text: string, id: Id, expiry: string,
                   inserted: Reply<Todo>): (r: Step)
    // a blank text changes nothing and sends nothing
    ensures IsBlank(text) ==> r == Step(s, [], false)
    ensures !IsBlank(text) && user.Some? ==>
              && r.calls == [Insert(user.value.id, text)]
              && r.store == (if inserted.Ok? then s.(todos := s.todos + [inserted.value]) else s)
    ensures !IsBlank(text) && user.None? && s.guestMode ==>
              && r.calls == []
              && r.store.todos == s.todos + [Todo(id, text, false)]
              && r.store.cookie == GuestStore.Save(s.codec, r.store.todos, expiry)
              && (GuestStore.Carries(s.codec, r.store.todos) ==> WrittenThrough(r.store))
    ensures user.None? && !s.guestMode ==> r == Step(s, [], false)
    // the list only ever grows by one record at its end
    ensures r.store.todos == s.todos || (|r.store.todos| == |s.todos| + 1 && r.store.todos[..|s.todos|] == s.todos)
    ensures r.store.guestMode == s.guestMode && r.store.guestFlag == s.guestFlag && !r.thrown
    ensures r.store.codec == s.codec
  {
    if IsBlank(text) then Step(s, [], false)
    else if user.Some? then
      var calls := [Insert(user.value.id, text)];
      if inserted.Ok? then Step(s.(todos := s.todos + [inserted.value]), calls, false)
      else Step(s, calls, false)
    else if s.guestMode then
      Step(SaveGuestTodos(s, s.todos + [Todo(id, text, false)], expiry), [], false)
    else Step(s, [], false)
  }

  /** `updateTodo(updated)`. `answer` is the remote store's reply. */
  function UpdateTodo(s: Store, user: Option<User>, updated: Todo, expiry: string,
                      answer: Reply<()>): (r: Step)
    ensures user.Some? ==>
              && r.calls == [Update(updated.id, updated.text, updated.completed)]
              && r.store == (if answer.Ok? then s.(todos := ReplaceById(s.todos, updated)) else s)
    ensures user.None? && s.guestMode ==>
              && r.calls == [] && r.store.todos == ReplaceById(s.todos, updated)
              && r.store.cookie == GuestStore.Save(s.codec, r.store.todos, expiry)
              && (GuestStore.Carries(s.codec, r.store.todos) ==> WrittenThrough(r.store))
    ensures user.None? && !s.guestMode ==> r == Step(s, [], false)
    // whatever the branch, the list is either untouched or updated by id
    ensures r.store.todos == s.todos || r.store.todos == ReplaceById(s.todos, updated)
    ensures |r.store.todos| == |s.todos|
    ensures r.store.guestMode == s.guestMode && r.store.guestFlag == s.guestFlag && !r.thrown
    ensures r.store.codec == s.codec
  {
    if user.Some? then
      var calls := [Update(updated.id, updated.text, updated.completed)];
      if answer.Ok? then Step(s.(todos := ReplaceById(s.todos, updated)), calls, false)
      else Step(s, calls, false)
    else if s.guestMode then
      Step(SaveGuestTodos(s, ReplaceById(s.todos, updated), expiry), [], false)
    else Step(s, [], false)
  }

  /** `deleteTodo(id)`. `answer` is the remote store's reply. */
  function DeleteTodo(s: Store, user: Option<User>, id: Id, expiry: string,
                      answer: Reply<()>): (r: Step)
    ensures user.Some? ==>
              && r.calls == [Delete(id)]
              && r.store == (if answer.Ok? then s.(todos := RemoveById(s.todos, id)) else s)
    ensures user.None? && s.guestMode ==>
              && r.calls == [] && r.store.todos == RemoveById(s.todos, id)
              && r.store.cookie == GuestStore.Save(s.codec, r.store.todos, expiry)
              && (GuestStore.Carries(s.codec, r.store.todos) ==> WrittenThrough(r.store))
    ensures user.None? && !s.guestMode ==> r == Step(s, [], false)
    ensures r.store.todos == s.todos || r.store.todos == RemoveById(s.todos, id)
    ensures forall t :: t in r.store.todos ==> t in s.todos
    ensures r.store.guestMode == s.guestMode && r.store.guestFlag == s.guestFlag && !r.thrown
    ensures r.store.codec == s.codec
  {
    if user.Some? then
      var calls := [Delete(id)];
      if answer.Ok? then Step(s.(todos := RemoveById(s.todos, id)), calls, false)
      else Step(s, calls, false)
    else if s.guestMode then
      Step(SaveGuestTodos(s, RemoveById(s.todos, id), expiry), [], false)
    else Step(s, [], false)
  }

  /** `handleSignOut`: sign out, leave guest mode, remove the flag and
      empty the list; the cookie is left as it is. */
  function HandleSignOut(s: Store): (r: Step)
    ensures r.store.todos == [] && !r.store.guestMode && r.store.guestFlag.None?
    ensures r.store.cookie == s.cookie && r.store.codec == s.codec
    ensures r.calls == [SignOut] && !r.thrown
  {
    Step(s.(todos := [], guestMode := false, guestFlag := None), [SignOut], false)
  }

  /** `handleBackToLogin`: leave guest mode only; the list, the flag and the
      cookie stay as they are. */
  function HandleBackToLogin(s: Store): (r: Step)
    ensures !r.store.guestMode
    ensures r.store.todos == s.todos && r.store.guestFlag == s.guestFlag && r.store.cookie == s.cookie
    ensures r.store.codec == s.codec
    ensures r.calls == [] && !r.thrown
  {
    Step(s.(guestMode := false), [], false)
  }

  // ------------------------------------------------------------ properties

  /** One guest-mode mutation, with its parameters. */
  datatype GuestAction =
    | AddAction(text: string, id: Id, expiry: string)
    | UpdateAction(updated: Todo, expiry: string)
    | DeleteAction(id: Id, expiry: string)

  function ApplyGuest(s: Store, a: GuestAction): Store {
    match a
    case AddAction(text, id, expiry) => AddTodo(s, None, text, id, expiry, Failed("")).store
    case UpdateAction(u, expiry) => UpdateTodo(s, None, u, expiry, Failed("")).store
    case DeleteAction(id, expiry) => DeleteTodo(s, None, id, expiry, Failed("")).store
  }

  function RunGuest(s: Store, actions: seq<GuestAction>): Store
    decreases |actions|
  {
    if |actions| == 0 then s else RunGuest(ApplyGuest(s, actions[0]), actions[1..])
  }

  /** The action brings in no text the codec cannot carry. */
  predicate Carried(c: GuestStore.Codec, a: GuestAction) {
    c.Escaped? ||
    match a
    case AddAction(text, _, _) => ';' !in text
    case UpdateAction(u, _) => ';' !in u.text
    case DeleteAction(_, _) => true
  }

  /** In guest mode, with a cookie that reads back as the list and a
      codec that carries it. */
  predicate GuestInSync(s: Store) {
    s.guestMode && WrittenThrough(s) && GuestStore.Carries(s.codec, s.todos)
  }

  predicate AllCarried(c: GuestStore.Codec, actions: seq<GuestAction>) {
    forall i :: 0 <= i < |actions| ==> Carried(c, actions[i])
  }

  /** In guest mode the cookie keeps up with the list: once a mutation has
      written it, every later add, update or delete leaves the cookie
      reading back as exactly the in-memory list, as long as the codec
      carries every text. With the escaped codec that is every sequence of
      mutations; as written, only those that bring in no `;`. */
  lemma {:induction false} GuestWriteThrough(s: Store, actions: seq<GuestAction>)
    requires GuestInSync(s) && AllCarried(s.codec, actions)
    ensures RunGuest(s, actions).guestMode && WrittenThrough(RunGuest(s, actions))
    decreases |actions|
  {
    if |actions| > 0 {
      var next, rest := ApplyGuest(s, actions[0]), actions[1..];
      GuestActionWritesThrough(s, actions[0]);
      assert AllCarried(next.codec, rest) by {
        assert forall i :: 0 <= i < |rest| ==> rest[i] == actions[i + 1];
      }
      GuestWriteThrough(next, rest);
    }
  }

  /** With the escaped codec, the cookie keeps up with the list whatever
      the texts hold. */
  lemma EscapedWriteThrough(s: Store, actions: seq<GuestAction>)
    requires s.guestMode && WrittenThrough(s) && s.codec.Escaped?
    ensures WrittenThrough(RunGuest(s, actions))
  {
    GuestWriteThrough(s, actions);
  }

  /** Entering guest mode on a cookie that loads, with texts the codec
      carries, starts the session in sync with the cookie. */
  lemma GuestEntryInSync(s: Store)
    requires GuestStore.Load(s.codec, s.cookie).Loaded?
    requires GuestStore.Carries(s.codec, GuestStore.Load(s.codec, s.cookie).todos)
    ensures GuestInSync(HandleGuestSignIn(s).store)
    ensures HandleGuestSignIn(s).store.todos == GuestStore.Load(s.codec, s.cookie).todos
  {
  }

  /** A whole guest session: enter guest mode on a cookie that loads, then
      run guest mutations the codec carries; the cookie keeps reading back
      as the in-memory list. */
  lemma GuestSessionWritesThrough(s: Store, actions: seq<GuestAction>)
    requires GuestStore.Load(s.codec, s.cookie).Loaded?
    requires GuestStore.Carries(s.codec, GuestStore.Load(s.codec, s.cookie).todos)
    requires AllCarried(s.codec, actions)
    ensures WrittenThrough(RunGuest(HandleGuestSignIn(s).store, actions))
  {
    GuestEntryInSync(s);
    GuestWriteThrough(HandleGuestSignIn(s).store, actions);
  }

  /** One guest-mode mutation keeps guest mode and the codec, and leaves the
      cookie reading back as the new list when the codec carries it. */
  lemma GuestActionWritesThrough(s: Store, a: GuestAction)
    requires GuestInSync(s) && Carried(s.codec, a)
    ensures GuestInSync(ApplyGuest(s, a)) && ApplyGuest(s, a).codec == s.codec
  {
    match a
    case AddAction(text, id, expiry) =>
      if s.codec.Raw? {
        GuestStore.NoSemicolonAppend(s.todos, Todo(id, text, false));
      }
      var r := AddTodo(s, None, text, id, expiry, Failed(""));
      assert r.store == s || r.store.todos == s.todos + [Todo(id, text, false)];
    case UpdateAction(u, expiry) =>
      if s.codec.Raw? {
        GuestStore.NoSemicolonReplace(s.todos, u);
      }
    case DeleteAction(id, expiry) =>
      if s.codec.Raw? {
        GuestStore.NoSemicolonRemove(s.todos, id);
      }
  }

  /** As written, a guest todo `a;b` added to an empty guest list makes the
      next `loadGuestTodos` throw. */
  lemma RawSemicolonBreaksReload(s: Store, expiry: string)
    requires s.guestMode && s.codec.Raw? && s.todos == []
    ensures var after := AddTodo(s, None, "a;b", 1, expiry, Failed("")).store;
            after.todos == [Todo(1, "a;b", false)] && LoadGuestTodos(after).thrown
  {
    var after := AddTodo(s, None, "a;b", 1, expiry, Failed("")).store;
    ExampleIsNotBlank();
    GuestAddAsWritten(s, "a;b", 1, expiry);
    assert after.todos == [Todo(1, "a;b", false)];
    GuestStore.SemicolonCorruptsGuestList(expiry);
    CorruptCookieThrows(after);
  }

  lemma ExampleIsNotBlank()
    ensures !IsBlank("a;b")
  {
    assert Trimmed("a;b");
    TrimOfTrimmed("a;b");
  }

  /** As written, a guest add stores the raw JSON of the new list. */
  lemma GuestAddAsWritten(s: Store, text: string, id: Id, expiry: string)
    requires s.guestMode && s.codec.Raw? && !IsBlank(text)
    ensures var after := AddTodo(s, None, text, id, expiry, Failed("")).store;
            && after.todos == s.todos + [Todo(id, text, false)]
            && after.cookie == GuestStore.WriteAsWritten(after.todos, expiry)
            && after.codec.Raw?
  {
  }

  lemma CorruptCookieThrows(s: Store)
    requires s.codec.Raw? && GuestStore.ReadAsWritten(s.cookie) == GuestStore.Corrupt
    ensures LoadGuestTodos(s).thrown
  {
  }

  /** A failed request leaves the state exactly as it was, whichever
      mutation it was. */
  lemma FailedRequestChangesNothing(s: Store, u: User, text: string, id: Id, updated: Todo,
                                    expiry: string, message: string)
    ensures AddTodo(s, Some(u), text, id, expiry, Failed(message)).store == s
    ensures UpdateTodo(s, Some(u), updated, expiry, Failed(message)).store == s
    ensures DeleteTodo(s, Some(u), id, expiry, Failed(message)).store == s
  {
  }

  /** Signing in from guest mode replaces the guest list by the account's
      list: an account without records shows an empty list, and the guest
      records are not merged in. */
  lemma SignInDiscardsGuestList(s: Store, u: User)
    requires s.guestMode
    ensures ResolveMode(s, Some(u), Ok([])).store.todos == []
    ensures !ResolveMode(s, Some(u), Ok([])).store.guestMode
  {
  }

  /** Re-running the effect with the same user settles on the same mode and
      flag; the list request is sent again, so the effect is not free of
      effects. */
  lemma ResolveModeSettles(s: Store, user: Option<User>, fetched: Reply<seq<Todo>>)
    ensures var once := ResolveMode(s, user, fetched).store;
            var twice := ResolveMode(once, user, fetched).store;
            twice.guestMode == once.guestMode && twice.guestFlag == once.guestFlag
  {
  }

  /** After signing out, the effect that runs once the user is gone keeps
      the empty list and stays out of guest mode, whatever flag was stale. */
  lemma SignOutThenEffect(s: Store, fetched: Reply<seq<Todo>>)
    ensures ResolveMode(HandleSignOut(s).store, None, fetched).store == Store([], false, None, s.cookie, s.codec)
  {
  }

  /** Back to login keeps the flag, so the effect run on the next page load
      puts the guest straight back into guest mode. */
  lemma BackToLoginReturnsToGuestOnReload(s: Store, fetched: Reply<seq<Todo>>)
    requires s.guestFlag == Some(GuestFlagOn)
    ensures ResolveMode(HandleBackToLogin(s).store, None, fetched).store.guestMode
  {
  }
}

=== FILE: auth.dfy ===
/** The `Auth` component's logic: the e-mail format test, the ordered checks
    and error messages of `handleSubmit`, and `handleGuestLogin`. */
module Auth {
  import opened Wrappers
  import opened Text
  import App

  // ------------------------------------------------------------ validateEmail

  /** A character the class `[^\s@]` admits. */
  predicate Plain(c: char) {
    !IsSpace(c) && c != '@'
  }

  predicate AllPlain(s: string) {
    forall i :: 0 <= i < |s| ==> Plain(s[i])
  }

  /** The shape of `/^[^\s@]+@[^\s@]+\.[^\s@]+$/`: the `@` at `at` and the
      `.` at `dot` split the string into three non-empty runs of plain
      characters. */
  ghost predicate EmailAt(s: string, at: int, dot: int) {
    && 0 < at && at + 1 < dot && dot + 1 < |s|
    && s[at] == '@' && s[dot] == '.'
    && AllPlain(s[..at]) && AllPlain(s[at + 1..dot]) && AllPlain(s[dot + 1..])
  }

  ghost predicate MatchesEmailPattern(s: string) {
    exists at, dot :: EmailAt(s, at, dot)
  }

  /** Position of the first `c` in `s`. */
  function IndexOf(s: string, c: char): (r: Option<nat>)
    ensures r.None? <==> c !in s
    ensures r.Some? ==> r.value < |s| && s[r.value] == c && c !in s[..r.value]
  {
    if |s| == 0 then None
    else if s[0] == c then Some(0)
    else
      match IndexOf(s[1..], c)
      case None => None
      case Some(i) =>
        assert s[..i + 1] == [s[0]] + s[1..][..i];
        Some(i + 1)
  }

  /** The domain part after the `@`: plain throughout, with a `.` that is
      neither its first nor its last character. */
  predicate DomainOk(d: string) {
    AllPlain(d) && exists k :: 0 < k < |d| - 1 && d[k] == '.'
  }

  /** `validateEmail(email)`. Lower-casing the string first does not change
      which characters are white space, `@` or `.`, so it is not modelled. */
  function ValidateEmail(email: string): (r: bool)
    // an accepted address holds an `@`, a `.` after it, and no white space
    ensures r ==> exists at :: 0 < at < |email| && email[at] == '@' && '.' in email[at + 1..]
    ensures r ==> forall i :: 0 <= i < |email| ==> !IsSpace(email[i])
  {
    match IndexOf(email, '@')
    case None => false
    case Some(at) =>
      var ok := at > 0 && AllPlain(email[..at]) && DomainOk(email[at + 1..]);
      if ok then
        assert forall i :: 0 <= i < |email| ==> !IsSpace(email[i]) by {
          assert forall i :: 0 <= i < at ==> email[i] == email[..at][i];
          assert forall i :: at < i < |email| ==> email[i] == email[at + 1..][i - at - 1];
        }
        var d := email[at + 1..];
        var k :| 0 < k < |d| - 1 && d[k] == '.';
        assert '.' in d;
        ok
      else ok
  }

  /** The test accepts exactly the strings of the regular expression's shape. */
  lemma ValidateEmailMatchesPattern(email: string)
    ensures ValidateEmail(email) <==> MatchesEmailPattern(email)
  {
    if ValidateEmail(email) {
      AcceptedMatches(email);
    }
    if MatchesEmailPattern(email) {
      var at, dot :| EmailAt(email, at, dot);
      MatchAccepted(email, at, dot);
    }
  }

  lemma AcceptedMatches(email: string)
    requires ValidateEmail(email)
    ensures MatchesEmailPattern(email)
  {
    var at := IndexOf(email, '@').value;
    var d := email[at + 1..];
    var k :| 0 < k < |d| - 1 && d[k] == '.';
    var dot := at + 1 + k;
    assert email[at + 1..dot] == d[..k];
    assert email[dot + 1..] == d[k + 1..];
    assert EmailAt(email, at, dot);
  }

  lemma MatchAccepted(email: string, at: int, dot: int)
    requires EmailAt(email, at, dot)
    ensures ValidateEmail(email)
  {
    var found := IndexOf(email, '@');
    assert found == Some(at) by {
      assert '@' !in email[..at];
    }
    var d := email[at + 1..];
    var k := dot - at - 1;
    assert d[k] == '.';
    assert d == email[at + 1..dot] + ['.'] + email[dot + 1..];
    assert AllPlain(d);
    assert DomainOk(d);
  }

  /** An accepted address holds exactly one `@`. */
  lemma AcceptedEmailHasOneAt(email: string)
    requires ValidateEmail(email)
    ensures Count(email, '@') == 1
  {
    var at := IndexOf(email, '@').value;
    var a := email[..at];
    var b := email[at + 1..];
    assert email == a + ['@'] + b;
    CountAppend(a + ['@'], b, '@');
    CountAppend(a, ['@'], '@');
    assert '@' !in b;
  }

  // ------------------------------------------------------------ handleSubmit

  /** The authentication service's answer: success, an error with its
      message, or an exception. */
  datatype AuthReply = Accepted | Rejected(message: string) | Threw

  /** The request `handleSubmit` sends. */
  datatype AuthCall = SignUp(email: string, password: string) | SignIn(email: string, password: string)

  /** The component state `handleSubmit` leaves behind and the request it sent. */
  datatype Submitted = Submitted(error: string, loading: bool, call: Option<AuthCall>)

  const EmptyFields := "Email and password must not be empty."
  const BadFormat := "Email format is invalid."
  const ShortPassword := "Password must be at least 8 characters."
  const Unexpected := "An unexpected error occurred. Please try again."
  const MinPasswordLength := 8

  /** The message shown for a failed sign-up: the known causes in order, else
      the service's own message. */
  function SignUpError(message: string): (r: string)
    ensures Contains(message, "User already registered") ==> r == "Email already registered. Please Sign In."
    ensures !Contains(message, "User already registered") && Contains(message, "Email rate limit exceeded")
            ==> r == "Too many sign up attempts. Please try again later."
    ensures !Contains(message, "User already registered") && !Contains(message, "Email rate limit exceeded")
            ==> r == "Sign up failed: " + message
    ensures r != ""
  {
    if Contains(message, "User already registered") then "Email already registered. Please Sign In."
    else if Contains(message, "Email rate limit exceeded") then "Too many sign up attempts. Please try again later."
    else "Sign up failed: " + message
  }

  /** The message shown for a failed sign-in, likewise. */
  function SignInError(message: string): (r: string)
    ensures Contains(message, "Invalid login credentials") ==> r == "Incorrect email or password."
    ensures !Contains(message, "Invalid login credentials") && Contains(message, "Email not confirmed")
            ==> r == "Please confirm your email address first."
    ensures !Contains(message, "Invalid login credentials") && !Contains(message, "Email not confirmed")
            ==> r == "Sign in failed: " + message
    ensures r != ""
  {
    if Contains(message, "Invalid login credentials") then "Incorrect email or password."
    else if Contains(message, "Email not confirmed") then "Please confirm your email address first."
    else "Sign in failed: " + message
  }

  /** The three input checks pass. */
  predicate InputsOk(email: string, password: string) {
    email != "" && password != "" && ValidateEmail(email) && Utf16Length(password) >= MinPasswordLength
  }

  /** `handleSubmit`. `reply` is the service's answer, used only when a
      request is sent. */
  function HandleSubmit(email: string, password: string, isSignUp: bool, reply: AuthReply): (r: Submitted)
    // the service is reached exactly when every check passes
    ensures r.call.Some? <==> InputsOk(email, password)
    ensures r.call.Some? ==> r.call.value == (if isSignUp then SignUp(email, password) else SignIn(email, password))
    // the checks run in order and the first failing one names the error
    ensures email == "" || password == "" ==> r.error == EmptyFields
    ensures email != "" && password != "" && !ValidateEmail(email) ==> r.error == BadFormat
    ensures email != "" && password != "" && ValidateEmail(email) && Utf16Length(password) < MinPasswordLength
            ==> r.error == ShortPassword
    // no error is left exactly when the request succeeded
    ensures r.error == "" <==> r.call.Some? && reply == Accepted
    ensures r.call.Some? && reply.Threw? ==> r.error == Unexpected
    ensures r.call.Some? && reply.Rejected? ==>
              r.error == (if isSignUp then SignUpError(reply.message) else SignInError(reply.message))
    // every exit stops the spinner
    ensures !r.loading
  {
    if email == "" || password == "" then Submitted(EmptyFields, false, None)
    else if !ValidateEmail(email) then Submitted(BadFormat, false, None)
    else if Utf16Length(password) < MinPasswordLength then Submitted(ShortPassword, false, None)
    else
      var call := if isSignUp then SignUp(email, password) else SignIn(email, password);
      var error := match reply
        case Accepted => ""
        case Threw => Unexpected
        case Rejected(m) => if isSignUp then SignUpError(m) else SignInError(m);
      Submitted(error, false, Some(call))
  }

  /** Four characters outside the Basic Multilingual Plane make a password
      long enough: `length` counts them as eight UTF-16 units. */
  lemma PasswordLengthCountsCodeUnits()
    ensures Utf16Length("\U{1F600}\U{1F600}\U{1F600}\U{1F600}") == 8
  {
  }

  // ------------------------------------------------------------ handleGuestLogin

  /** `handleGuestLogin`: store the flag, then let `App` enter guest mode.
      The flag is set even when loading the stored list throws. */
  function HandleGuestLogin(s: App.Store): (r: App.Step)
    ensures r.store.guestFlag == Some(App.GuestFlagOn)
    ensures r.store.guestMode
    ensures r == App.HandleGuestSignIn(s.(guestFlag := Some(App.GuestFlagOn)))
  {
    App.HandleGuestSignIn(s.(guestFlag := Some(App.GuestFlagOn)))
  }
}

=== FILE: cookie.dfy ===
/** The cookie helpers of `src/utils/cookie.js`: a reader that scans a
    `;`-separated cookie header for the first `name=` segment, and the two
    writers that build the strings assigned to `document.cookie`. */
module Cookie {
  import opened Wrappers
  import opened Text

  /** `s.split(';')`: the pieces between separators, in order; the empty
      string splits into one empty piece. */
  function Split(s: string): (r: seq<string>)
    ensures |r| >= 1
    ensures forall i :: 0 <= i < |r| ==> ';' !in r[i]
    ensures Join(r) == s
  {
    if |s| == 0 then [""]
    else if s[0] == ';' then [""] + Split(s[1..])
    else
      var t := Split(s[1..]);
      assert ';' !in [s[0]] + t[0];
      [[s[0]] + t[0]] + t[1..]
  }

  /** `segs.join(';')`. */
  function Join(segs: seq<string>): string
    requires |segs| >= 1
  {
    if |segs| == 1 then segs[0] else segs[0] + ";" + Join(segs[1..])
  }

  /** Splitting undoes joining when no piece holds the separator. */
  lemma {:induction false} SplitJoin(segs: seq<string>)
    requires |segs| >= 1
    requires forall i :: 0 <= i < |segs| ==> ';' !in segs[i]
    ensures Split(Join(segs)) == segs
  {
    if |segs| == 1 {
      SplitNoSeparator(segs[0]);
    } else {
      SplitJoin(segs[1..]);
      SplitAfterSeparator(segs[0], Join(segs[1..]));
    }
  }

  lemma {:induction false} SplitNoSeparator(a: string)
    requires ';' !in a
    ensures Split(a) == [a]
  {
    if |a| > 0 {
      SplitNoSeparator(a[1..]);
      assert [a[0]] + a[1..] == a;
    }
  }

  /** A separator-free head followed by `;` becomes the first piece. */
  lemma {:induction false} SplitAfterSeparator(a: string, b: string)
    requires ';' !in a
    ensures Split(a + ";" + b) == [a] + Split(b)
  {
    if |a| == 0 {
      assert a + ";" + b == ";" + b;
      assert (";" + b)[1..] == b;
    } else {
      var s := a + ";" + b;
      assert s[1..] == a[1..] + ";" + b;
      SplitAfterSeparator(a[1..], b);
      assert [a[0]] + a[1..] == a;
    }
  }

  /** Each piece trimmed, as the loop of `getCookie` trims it before testing. */
  function TrimAll(segs: seq<string>): (r: seq<string>)
    ensures |r| == |segs|
    ensures forall i :: 0 <= i < |segs| ==> r[i] == Trim(segs[i])
  {
    seq(|segs|, i requires 0 <= i < |segs| => Trim(segs[i]))
  }

  /** The test `cookie.startsWith(name + '=')` on a trimmed piece. */
  predicate Matches(piece: string, name: string) {
    StartsWith(piece, name + "=")
  }

  /** The loop of `getCookie` over the trimmed pieces: the text after
      `name=` in the first piece that matches, or `None` when none does. */
  function FirstMatch(pieces: seq<string>, name: string): (r: Option<string>)
    ensures r.None? <==> forall i :: 0 <= i < |pieces| ==> !Matches(pieces[i], name)
    ensures r.Some? ==> exists i :: IsFirstMatch(pieces, name, i) && r.value == pieces[i][|name| + 1..]
  {
    if |pieces| == 0 then None
    else if Matches(pieces[0], name) then
      assert IsFirstMatch(pieces, name, 0);
      Some(pieces[0][|name| + 1..])
    else
      var r := FirstMatch(pieces[1..], name);
      assert forall i :: 1 <= i < |pieces| ==> pieces[i] == pieces[1..][i - 1];
      if r.Some? then
        var i :| IsFirstMatch(pieces[1..], name, i) && r.value == pieces[1..][i][|name| + 1..];
        assert IsFirstMatch(pieces, name, i + 1);
        r
      else r
  }

  /** Piece `i` is the first of `pieces` that matches `name`. */
  predicate IsFirstMatch(pieces: seq<string>, name: string, i: int) {
    && 0 <= i < |pieces| && Matches(pieces[i], name)
    && forall j :: 0 <= j < i ==> !Matches(pieces[j], name)
  }

  /** `getCookie(name)` read against the header `header`: null exactly when
      no piece, trimmed, starts with `name=`, and otherwise the text after
      `name=` in the first trimmed piece that does. */
  function GetCookie(header: string, name: string): (r: Option<string>)
    ensures r.None? ==> forall i :: 0 <= i < |Split(header)| ==> !Matches(Trim(Split(header)[i]), name)
    ensures (forall i :: 0 <= i < |Split(header)| ==> !Matches(Trim(Split(header)[i]), name)) ==> r.None?
    ensures r.Some? ==> exists i :: && IsFirstMatch(TrimAll(Split(header)), name, i)
                                    && r.value == TrimAll(Split(header))[i][|name| + 1..]
  {
    var pieces := TrimAll(Split(header));
    FirstMatch(pieces, name)
  }

  /** A header whose first piece, trimmed, matches yields that piece's value. */
  lemma FirstPieceMatches(seg: string, rest: string, name: string)
    requires ';' !in seg && Matches(Trim(seg), name)
    ensures GetCookie(seg + ";" + rest, name) == Some(Trim(seg)[|name| + 1..])
  {
    SplitAfterSeparator(seg, rest);
    var pieces := TrimAll(Split(seg + ";" + rest));
    assert pieces[0] == Trim(seg);
  }

  /** A header of one piece that does not match yields nothing. */
  lemma OnlyPieceFails(seg: string, name: string)
    requires ';' !in seg && !Matches(Trim(seg), name)
    ensures GetCookie(seg, name) == None
  {
    SplitNoSeparator(seg);
  }

  /** `setCookie(name, value, days)`, where `expiry` stands for the
      `toUTCString()` text of the expiry date computed from the clock. */
  function SetCookie(name: string, value: string, expiry: string): (r: string)
    // without a separator of its own, each part is one piece of the header
    ensures ';' !in name && ';' !in value && ';' !in expiry ==>
              Split(r) == [name + "=" + value, "expires=" + expiry, "path=/"]
  {
    var pair, expires := name + "=" + value, "expires=" + expiry;
    ThreePieces(pair, expires, "path=/");
    assert pair + ";" + expires + ";" + "path=/" == name + "=" + value + ";" + "expires=" + expiry + ";path=/";
    name + "=" + value + ";" + "expires=" + expiry + ";path=/"
  }

  /** `deleteCookie(name)`. */
  function DeleteCookie(name: string): (r: string)
    // the header's first piece is the name with an empty value
    ensures ';' !in name ==> Split(r)[0] == name + "="
    // the expiry in the past is what makes the browser drop the cookie
    ensures ';' !in name ==> Split(r) == [name + "=", ExpiredPiece, " path=/", ""]
  {
    var r := name + "=;" + ExpiredAttributes;
    assert r == (name + "=") + ";" + ExpiredAttributes;
    if ';' in name then r
    else
      SplitAfterSeparator(name + "=", ExpiredAttributes);
      ExpiredPieces();
      r
  }

  lemma ThreePieces(a: string, b: string, c: string)
    ensures ';' !in a && ';' !in b && ';' !in c ==> Split(a + ";" + b + ";" + c) == [a, b, c]
  {
    if ';' !in a && ';' !in b && ';' !in c {
      assert a + ";" + b + ";" + c == a + ";" + (b + ";" + c);
      SplitAfterSeparator(a, b + ";" + c);
      SplitAfterSeparator(b, c);
      SplitNoSeparator(c);
    }
  }

  lemma ExpiredPieces()
    ensures Split(ExpiredAttributes) == [ExpiredPiece, " path=/", ""]
  {
    SplitAfterSeparator(ExpiredPiece, " path=/;");
    PathPieces();
  }

  lemma PathPieces()
    ensures Split(" path=/;") == [" path=/", ""]
  {
    assert " path=/;" == " path=/" + ";" + "";
    SplitAfterSeparator(" path=/", "");
    SplitNoSeparator("");
  }

  /** The attributes `deleteCookie` appends: an expiry in 1970 and the root path. */
  const ExpiredAttributes := ExpiredPiece + ";" + " path=/;"
  const ExpiredPiece := " expires=Thu, 01 Jan 1970 00:00:00 UTC"


  /** A name that trimming leaves alone at its front and that holds no
      separator, such as the application's `guestTodos`. */
  predicate PlainName(name: string) {
    ';' !in name && (name == [] || !IsSpace(name[0]))
  }

  lemma {:induction false} TrimEndAfter(p: string, v: string)
    requires p != [] && !IsSpace(p[|p| - 1])
    ensures TrimEnd(p + v) == p + TrimEnd(v)
    decreases |v|
  {
    if |v| > 0 && IsSpace(v[|v| - 1]) {
      assert (p + v)[..|p + v| - 1] == p + v[..|v| - 1];
      TrimEndAfter(p, v[..|v| - 1]);
    } else if |v| == 0 {
      assert p + v == p;
    }
  }

  /** When the header begins with the piece `name=value`, `getCookie(name)`
      returns `value` with trailing white space removed. */
  lemma LeadingSegment(name: string, value: string, rest: string)
    requires PlainName(name) && ';' !in value
    ensures GetCookie(name + "=" + value + ";" + rest, name) == Some(TrimEnd(value))
  {
    var seg := name + "=" + value;
    assert ';' !in seg;
    var p := name + "=";
    assert seg == p + value;
    TrimEndAfter(p, value);
    assert TrimStart(seg) == seg;
    assert Trim(seg) == p + TrimEnd(value);
    assert Matches(Trim(seg), name);
    FirstPieceMatches(seg, rest, name);
  }

  /** Reading back a value written by `setCookie` yields its first
      `;`-separated piece without trailing white space: the text after a
      `;` is lost, and so is white space at the end. */
  lemma {:induction false} ReadAfterSet(name: string, value: string, expiry: string)
    requires PlainName(name)
    ensures GetCookie(SetCookie(name, value, expiry), name) == Some(TrimEnd(Split(value)[0]))
  {
    var segs := Split(value);
    var tail := "expires=" + expiry + ";path=/";
    if |segs| == 1 {
      assert SetCookie(name, value, expiry) == name + "=" + segs[0] + ";" + tail;
      LeadingSegment(name, segs[0], tail);
    } else {
      var more := Join(segs[1..]) + ";" + tail;
      assert value == segs[0] + ";" + Join(segs[1..]);
      assert SetCookie(name, value, expiry) == name + "=" + segs[0] + ";" + more;
      LeadingSegment(name, segs[0], more);
    }
  }

  /** The round trip of `setCookie` and `getCookie` is exact precisely when
      the value has no `;` and does not end in white space. */
  lemma {:induction false} SetGetRoundTrip(name: string, value: string, expiry: string)
    requires PlainName(name)
    ensures GetCookie(SetCookie(name, value, expiry), name) == Some(value)
            <==> ';' !in value && TrimEnd(value) == value
  {
    ReadAfterSet(name, value, expiry);
    var segs := Split(value);
    if ';' !in value {
      SplitNoSeparator(value);
    }
  }

  /** The header written by `deleteCookie` reads back as the empty value. */
  lemma ReadAfterDelete(name: string)
    requires PlainName(name)
    ensures GetCookie(DeleteCookie(name), name) == Some("")
  {
    assert DeleteCookie(name) == name + "=" + "" + ";" + ExpiredAttributes;
    LeadingSegment(name, "", ExpiredAttributes);
  }

  /** Looking up `a` does not match the piece `ab=1`: the name must be
      followed directly by `=`. */
  lemma PrefixOfNameDoesNotMatch()
    ensures GetCookie("ab=1", "a") == None
  {
    assert Trimmed("ab=1");
    TrimOfTrimmed("ab=1");
    assert "ab=1"[..2][1] != ("a" + "=")[1];
    OnlyPieceFails("ab=1", "a");
  }

  /** Of two pieces with the same name, the first one wins. */
  lemma FirstDuplicateWins()
    ensures GetCookie("k=1; k=2", "k") == Some("1")
  {
    assert "k" + "=" + "1" + ";" + " k=2" == "k=1; k=2";
    assert TrimEnd("1") == "1" by { TrimOfTrimmed("1"); }
    LeadingSegment("k", "1", " k=2");
  }

  /** The value may contain `=`; everything after the first `name=` is returned. */
  lemma ValueMayContainEquals()
    ensures GetCookie("k=a=b;", "k") == Some("a=b")
  {
    assert "k" + "=" + "a=b" + ";" + "" == "k=a=b;";
    assert TrimEnd("a=b") == "a=b" by { TrimOfTrimmed("a=b"); }
    LeadingSegment("k", "a=b", "");
  }
}

=== FILE: guest_store.dfy ===
/** The guest list's persistence in `App`: `saveGuestTodos` writes the list
    as JSON into the `guestTodos` cookie, and `loadGuestTodos` reads it
    back. The pair as the source writes it (`WriteAsWritten`,
    `ReadAsWritten`) loses every list whose text holds a `;` (see
    `SemicolonCorruptsGuestList`); `Write` and `Read` are the same pair with
    the cookie value escaped. `Codec` selects one of the two pairs. */
module GuestStore {
  import opened Wrappers
  import opened Text
  import opened TodoList
  import Cookie
  import Json

  /** The cookie name `GUEST_TODOS_KEY`. */
  const Key := "guestTodos"

  /** What reading the guest cookie yields: nothing usable (no cookie, or an
      empty value, which JavaScript treats as false), a list, or a value that
      `JSON.parse` rejects by throwing. */
  datatype Stored = Absent | Loaded(todos: seq<Todo>) | Corrupt

  lemma KeyIsPlain()
    ensures Cookie.PlainName(Key)
  {
  }

  // ------------------------------------------------------------ as written

  /** `saveGuestTodos(todos)` as written: the JSON text is the raw cookie
      value. `expiry` is the expiry date text derived from the clock. */
  function WriteAsWritten(todos: seq<Todo>, expiry: string): (r: string)
    // what `getCookie` hands back is the JSON text up to its first `;`
    ensures Cookie.GetCookie(r, Key) == Some(TrimEnd(Cookie.Split(Json.Serialise(todos))[0]))
  {
    KeyIsPlain();
    Cookie.ReadAfterSet(Key, Json.Serialise(todos), expiry);
    Cookie.SetCookie(Key, Json.Serialise(todos), expiry)
  }

  /** The read of `loadGuestTodos` as written: `getCookie`, the truthiness
      test, then `JSON.parse`. */
  function ReadAsWritten(header: string): (r: Stored)
    // a missing cookie and an empty value are both falsy: nothing is loaded
    ensures r.Absent? <==> Cookie.GetCookie(header, Key) == None || Cookie.GetCookie(header, Key) == Some("")
    // a list is loaded only from a value that parses to it, and a value that
    // does not parse makes `JSON.parse` throw
    ensures r.Loaded? ==> Json.Parse(Cookie.GetCookie(header, Key).value) == Some(r.todos)
    ensures r.Corrupt? ==> Json.Parse(Cookie.GetCookie(header, Key).value) == None
  {
    match Cookie.GetCookie(header, Key)
    case None => Absent
    case Some(v) =>
      if v == "" then Absent
      else match Json.Parse(v)
        case Some(todos) => Loaded(todos)
        case None => Corrupt
  }

  /** Some record's text holds a `;`. */
  predicate HasSemicolon(todos: seq<Todo>) {
    exists i :: 0 <= i < |todos| && ';' in todos[i].text
  }

  /** A list whose texts hold no `;` keeps that property under each of the
      application's three list transforms. */
  lemma NoSemicolonAppend(todos: seq<Todo>, t: Todo)
    requires !HasSemicolon(todos) && ';' !in t.text
    ensures !HasSemicolon(todos + [t])
  {
    var r := todos + [t];
    assert forall i :: 0 <= i < |todos| ==> r[i] == todos[i];
  }

  lemma NoSemicolonReplace(todos: seq<Todo>, u: Todo)
    requires !HasSemicolon(todos) && ';' !in u.text
    ensures !HasSemicolon(ReplaceById(todos, u))
  {
  }

  lemma NoSemicolonRemove(todos: seq<Todo>, id: Id)
    requires !HasSemicolon(todos)
    ensures !HasSemicolon(RemoveById(todos, id))
  {
    var r := RemoveById(todos, id);
    forall i | 0 <= i < |r|
      ensures ';' !in r[i].text
    {
      assert r[i] in todos;
    }
  }

  /** As written, the cookie holds the JSON text intact exactly when no
      record's text holds a `;`. */
  lemma {:induction false} AsWrittenKeepsTextIff(todos: seq<Todo>, expiry: string)
    ensures Cookie.GetCookie(WriteAsWritten(todos, expiry), Key) == Some(Json.Serialise(todos))
            <==> !HasSemicolon(todos)
  {
    var v := Json.Serialise(todos);
    Json.SerialiseIsFramed(todos);
    KeptIffNoSeparator(v, expiry);
    Json.SemicolonInSerialise(todos);
  }

  /** A value that does not end in white space is kept exactly when it holds no `;`. */
  lemma KeptIffNoSeparator(v: string, expiry: string)
    requires |v| > 0 && !IsSpace(v[|v| - 1])
    ensures Cookie.GetCookie(Cookie.SetCookie(Key, v, expiry), Key) == Some(v) <==> ';' !in v
  {
    assert TrimEnd(v) == v;
    KeyIsPlain();
    Cookie.SetGetRoundTrip(Key, v, expiry);
  }

  /** As written, a list without `;` in its texts survives the round trip. */
  lemma AsWrittenRoundTrip(todos: seq<Todo>, expiry: string)
    requires !HasSemicolon(todos)
    ensures ReadAsWritten(WriteAsWritten(todos, expiry)) == Loaded(todos)
  {
    AsWrittenKeepsTextIff(todos, expiry);
    Json.ParseSerialise(todos);
  }

  /** A guest todo `a;b` makes the saved list unreadable: the cookie value
      stops at the `;`, and `JSON.parse` throws on what is left. */
  lemma SemicolonCorruptsGuestList(expiry: string)
    ensures ReadAsWritten(WriteAsWritten([Todo(1, "a;b", false)], expiry)) == Corrupt
  {
    ExampleCookieValue(expiry);
    ExampleValueIsCorrupt();
  }

  /** The prefix of the example's JSON text that precedes the `;`, without
      its opening bracket: `{"id":1,"text":"a`. */
  const ExampleBody := "{\"id\":" + "1" + ",\"text\":\"" + "a"

  lemma ExampleCookieValue(expiry: string)
    ensures Cookie.GetCookie(WriteAsWritten([Todo(1, "a;b", false)], expiry), Key)
            == Some("[" + ExampleBody)
  {
    var value := Json.Serialise([Todo(1, "a;b", false)]);
    ExampleFirstPiece();
    ExampleHeadTrimmed();
    KeyIsPlain();
    Cookie.ReadAfterSet(Key, value, expiry);
  }

  lemma ExampleFirstPiece()
    ensures Cookie.Split(Json.Serialise([Todo(1, "a;b", false)]))[0] == "[" + ExampleBody
  {
    var head := "[" + ExampleBody;
    var tail := ExampleSerialise();
    assert ';' !in head;
    Cookie.SplitAfterSeparator(head, tail);
  }

  lemma ExampleHeadTrimmed()
    ensures TrimEnd("[" + ExampleBody) == "[" + ExampleBody
  {
    var head := "[" + ExampleBody;
    assert head[|head| - 1] == 'a';
  }

  lemma ExampleSerialise() returns (tail: string)
    ensures Json.Serialise([Todo(1, "a;b", false)]) == "[" + ExampleBody + ";" + tail
  {
    var t := Todo(1, "a;b", false);
    var d := Json.DoneField(false);
    tail := "b" + "\"" + d + "]";
    assert Json.Serialise([t]) == "[" + Json.SerialiseTodo(t) + "]";
    assert Json.NatToString(1) == "1";
    ExampleEscape();
    ExampleRegroup("[", "{\"id\":", "1", ",\"text\":\"", "a", "b", "\"", d, "]");
  }

  lemma ExampleEscape()
    ensures Json.Escape("a;b") == "a" + ";" + "b"
  {
    assert "a;b"[1..] == ";b" && ";b"[1..] == "b" && "b"[1..] == "";
  }

  /** Re-bracketing of the serialised example around its `;`. */
  lemma ExampleRegroup(o: string, k: string, n: string, p: string, x: string, y: string,
                q: string, d: string, c: string)
    ensures o + (k + n + (p + (x + ";" + y) + q + d)) + c
            == o + (k + n + p + x) + ";" + (y + q + d + c)
  {
  }

  lemma ExampleValueIsCorrupt()
    ensures Json.Parse("[" + ExampleBody) == None
  {
    var p0 := "{\"id\":";
    var p1 := ",\"text\":\"";
    Json.ExpectLiteral("[", ExampleBody);
    Json.ExpectLiteral(p0, "1" + p1 + "a");
    Json.ReadNatOfNatToString(1, p1 + "a");
    assert Json.NatToString(1) == "1";
    Json.ExpectLiteral(p1, "a");
    assert Json.ReadString("a") == None by {
      assert "a"[1..] == "";
    }
    assert Json.ReadTodo(ExampleBody) == None;
  }

  // ------------------------------------------------------------ corrected

  /** The cookie value escaping that keeps `;` out of the value: `%` and `;`
      are written as `%25` and `%3B`, as `encodeURIComponent` writes them. */
  function EncodeChar(c: char): string {
    if c == '%' then "%25" else if c == ';' then "%3B" else [c]
  }

  function Encode(s: string): (r: string)
    ensures ';' !in r
    ensures |r| >= |s|
  {
    if |s| == 0 then "" else EncodeChar(s[0]) + Encode(s[1..])
  }

  /** Undoes `Encode`; any other use of `%` is malformed. */
  function Decode(s: string): Option<string>
    decreases |s|
  {
    if |s| == 0 then Some("")
    else if s[0] == '%' then
      if |s| >= 3 && s[1..3] == "25" then
        var t :- Decode(s[3..]); Some("%" + t)
      else if |s| >= 3 && s[1..3] == "3B" then
        var t :- Decode(s[3..]); Some(";" + t)
      else None
    else
      var t :- Decode(s[1..]); Some([s[0]] + t)
  }

  lemma {:induction false} DecodeEncode(s: string)
    ensures Decode(Encode(s)) == Some(s)
  {
    if |s| > 0 {
      var e := Encode(s);
      DecodeEncode(s[1..]);
      assert e == EncodeChar(s[0]) + Encode(s[1..]);
      if s[0] == '%' || s[0] == ';' {
        assert e[1..3] == EncodeChar(s[0])[1..3];
        assert e[3..] == Encode(s[1..]);
      } else {
        assert e[1..] == Encode(s[1..]);
      }
      assert [s[0]] + s[1..] == s;
    }
  }

  /** Encoding keeps a final character that it does not escape. */
  lemma {:induction false} EncodeKeepsLast(s: string)
    requires |s| > 0 && s[|s| - 1] != '%' && s[|s| - 1] != ';'
    ensures |Encode(s)| > 0 && Encode(s)[|Encode(s)| - 1] == s[|s| - 1]
  {
    if |s| > 1 {
      EncodeKeepsLast(s[1..]);
    }
  }

  /** `saveGuestTodos(todos)` with the value escaped. */
  function Write(todos: seq<Todo>, expiry: string): string {
    Cookie.SetCookie(Key, Encode(Json.Serialise(todos)), expiry)
  }

  /** `loadGuestTodos`'s read with the value unescaped before parsing. */
  function Read(header: string): Stored {
    match Cookie.GetCookie(header, Key)
    case None => Absent
    case Some(v) =>
      if v == "" then Absent
      else match Decode(v)
        case None => Corrupt
        case Some(text) =>
          match Json.Parse(text)
          case Some(todos) => Loaded(todos)
          case None => Corrupt
  }

  /** Every list written is read back unchanged, whatever its texts hold. */
  lemma RoundTrip(todos: seq<Todo>, expiry: string)
    ensures Read(Write(todos, expiry)) == Loaded(todos)
  {
    var j := Json.Serialise(todos);
    var v := Encode(j);
    EncodedValueKept(todos, expiry);
    DecodeEncode(j);
    Json.ParseSerialise(todos);
    ReadSteps(Write(todos, expiry), v, j, todos);
  }

  /** The escaped value comes back from the cookie whole. */
  lemma EncodedValueKept(todos: seq<Todo>, expiry: string)
    ensures Cookie.GetCookie(Write(todos, expiry), Key) == Some(Encode(Json.Serialise(todos)))
    ensures Encode(Json.Serialise(todos)) != ""
  {
    var j := Json.Serialise(todos);
    var v := Encode(j);
    Json.SerialiseIsFramed(todos);
    EncodeKeepsLast(j);
    KeptIffNoSeparator(v, expiry);
  }

  lemma ReadSteps(header: string, v: string, j: string, todos: seq<Todo>)
    requires Cookie.GetCookie(header, Key) == Some(v) && v != ""
    requires Decode(v) == Some(j) && Json.Parse(j) == Some(todos)
    ensures Read(header) == Loaded(todos)
  {
  }

  // ------------------------------------------------------------ choice

  /** Which pair stores the guest list: `Raw` as the source writes it,
      `Escaped` with the corrected cookie value. */
  datatype Codec = Raw | Escaped

  function Save(c: Codec, todos: seq<Todo>, expiry: string): string {
    if c.Raw? then WriteAsWritten(todos, expiry) else Write(todos, expiry)
  }

  function Load(c: Codec, header: string): Stored {
    if c.Raw? then ReadAsWritten(header) else Read(header)
  }

  /** The codec carries the list through the cookie: the escaped codec
      carries every list, the raw one only lists without `;` in a text. */
  predicate Carries(c: Codec, todos: seq<Todo>) {
    c.Escaped? || !HasSemicolon(todos)
  }

  /** A list the codec carries is loaded back as it was saved. */
  lemma SaveLoad(c: Codec, todos: seq<Todo>, expiry: string)
    ensures Carries(c, todos) ==> Load(c, Save(c, todos, expiry)) == Loaded(todos)
  {
    if c.Raw? {
      if !HasSemicolon(todos) {
        AsWrittenRoundTrip(todos, expiry);
      }
    } else {
      RoundTrip(todos, expiry);
    }
  }
}

=== FILE: json.dfy ===
/** `JSON.stringify` and `JSON.parse` as the guest store uses them: on a list
    of todo records `{id, text, completed}`. `Serialise` writes the text
    `JSON.stringify` produces for such a list; `Parse` reads that text back.
    `Parse` accepts the JSON escapes of strings, a surrogate pair written as
    two `\u` escapes included, but no lone surrogate half, no white space
    between tokens and no other field order, and reports every other text
    as malformed (`None`), which is where `JSON.parse` throws. */
module Json {
  import opened Wrappers
  import opened Text
  import opened TodoList

  // ---------------------------------------------------------------- numbers

  predicate IsDigit(c: char) {
    '0' <= c <= '9'
  }

  function DigitChar(d: nat): (c: char)
    requires d < 10
    ensures IsDigit(c) && c as int - '0' as int == d
  {
    ('0' as int + d) as char
  }

  /** The decimal digits of `n`, most significant first, without leading zeros. */
  function NatToString(n: nat): (r: string)
    ensures |r| >= 1
    ensures forall i :: 0 <= i < |r| ==> IsDigit(r[i])
    ensures n >= 10 ==> r[0] != '0'
  {
    if n < 10 then [DigitChar(n)] else NatToString(n / 10) + [DigitChar(n % 10)]
  }

  /** The number a string of decimal digits denotes. */
  function DigitsValue(ds: string): nat
    requires forall i :: 0 <= i < |ds| ==> IsDigit(ds[i])
  {
    if |ds| == 0 then 0
    else
      var last := ds[|ds| - 1];
      assert IsDigit(last);
      DigitsValue(ds[..|ds| - 1]) * 10 + (last as int - '0' as int)
  }

  lemma {:induction false} DigitsValueOfNatToString(n: nat)
    ensures DigitsValue(NatToString(n)) == n
  {
    if n >= 10 {
      var r := NatToString(n);
      assert r[..|r| - 1] == NatToString(n / 10);
      DigitsValueOfNatToString(n / 10);
    }
  }

  /** Length of the run of digits at the front of `s`. */
  function DigitRun(s: string): (k: nat)
    ensures k <= |s|
    ensures forall i :: 0 <= i < k ==> IsDigit(s[i])
    ensures k < |s| ==> !IsDigit(s[k])
  {
    if |s| > 0 && IsDigit(s[0]) then 1 + DigitRun(s[1..]) else 0
  }

  lemma {:induction false} DigitRunOfDigits(ds: string, rest: string)
    requires forall i :: 0 <= i < |ds| ==> IsDigit(ds[i])
    requires rest == [] || !IsDigit(rest[0])
    ensures DigitRun(ds + rest) == |ds|
  {
    if |ds| > 0 {
      assert (ds + rest)[1..] == ds[1..] + rest;
      DigitRunOfDigits(ds[1..], rest);
    } else {
      assert ds + rest == rest;
    }
  }

  /** A JSON number that is a non-negative integer: a digit run with no
      leading zero, and what follows it. */
  function ReadNat(s: string): (r: Option<(nat, string)>)
    ensures r.Some? ==> |r.value.1| < |s|
  {
    var k := DigitRun(s);
    if k == 0 || (k > 1 && s[0] == '0') then None
    else Some((DigitsValue(s[..k]), s[k..]))
  }

  lemma ReadNatOfNatToString(n: nat, rest: string)
    requires rest == [] || !IsDigit(rest[0])
    ensures ReadNat(NatToString(n) + rest) == Some((n, rest))
  {
    var ds := NatToString(n);
    DigitRunOfDigits(ds, rest);
    assert (ds + rest)[..|ds|] == ds;
    DigitsValueOfNatToString(n);
  }

  // ---------------------------------------------------------------- strings

  function HexDigit(d: nat): char
    requires d < 16
  {
    "0123456789abcdef"[d]
  }

  /** The value of a hexadecimal digit, either case. */
  function HexValue(c: char): (r: Option<nat>)
    ensures r.Some? ==> r.value < 16
  {
    if '0' <= c <= '9' then Some(c as int - '0' as int)
    else if 'a' <= c <= 'f' then Some(c as int - 'a' as int + 10)
    else if 'A' <= c <= 'F' then Some(c as int - 'A' as int + 10)
    else None
  }

  /** How `JSON.stringify` writes one character inside a string literal. */
  function EscapeChar(c: char): string {
    if c == '"' then "\\\""
    else if c == '\\' then "\\\\"
    else if c == '\U{8}' then "\\b"
    else if c == '\U{C}' then "\\f"
    else if c == '\n' then "\\n"
    else if c == '\r' then "\\r"
    else if c == '\t' then "\\t"
    else if c < ' ' then "\\u00" + [HexDigit(c as int / 16), HexDigit(c as int % 16)]
    else [c]
  }

  function Escape(s: string): string {
    if |s| == 0 then "" else EscapeChar(s[0]) + Escape(s[1..])
  }

  /** The character a backslash escape denotes, and what follows it. */
  function ReadEscape(s: string): (r: Option<(char, string)>)
    ensures r.Some? ==> |r.value.1| < |s|
  {
    if |s| == 0 then None
    else if s[0] == '"' then Some(('"', s[1..]))
    else if s[0] == '\\' then Some(('\\', s[1..]))
    else if s[0] == '/' then Some(('/', s[1..]))
    else if s[0] == 'b' then Some(('\U{8}', s[1..]))
    else if s[0] == 'f' then Some(('\U{C}', s[1..]))
    else if s[0] == 'n' then Some(('\n', s[1..]))
    else if s[0] == 'r' then Some(('\r', s[1..]))
    else if s[0] == 't' then Some(('\t', s[1..]))
    else if s[0] == 'u' && |s| >= 5 then
      var v :- CodeUnit(s[1..5]);
      if 0xD800 <= v < 0xDC00 then
        // a high surrogate joins with a following `\u` low surrogate
        if |s| >= 11 && s[5] == '\\' && s[6] == 'u' then
          var w :- CodeUnit(s[7..11]);
          if 0xDC00 <= w < 0xE000 then
            Some(((0x1_0000 + (v - 0xD800) * 0x400 + (w - 0xDC00)) as char, s[11..]))
          else None
        else None
      // a lone surrogate half is not a character
      else if 0xDC00 <= v < 0xE000 then None
      else Some((v as char, s[5..]))
    else None
  }

  /** The UTF-16 code unit four hex digits denote. */
  function CodeUnit(s: string): (r: Option<nat>)
    requires |s| == 4
    ensures r.Some? ==> r.value < 0x1_0000
  {
    var h0 :- HexValue(s[0]);
    var h1 :- HexValue(s[1]);
    var h2 :- HexValue(s[2]);
    var h3 :- HexValue(s[3]);
    Some(((h0 * 16 + h1) * 16 + h2) * 16 + h3)
  }

  /** A surrogate pair written as two escapes reads as the one character
      it encodes, as `JSON.parse` reads it. */
  lemma SurrogatePairEscape()
    ensures ReadEscape("ud83d\\ude00") == Some(('\U{1F600}', ""))
  {
    var s := "ud83d\\ude00";
    assert s[1..5] == "d83d" && s[7..11] == "de00" && s[11..] == "";
    assert CodeUnit("d83d") == Some(0xD83D);
    assert CodeUnit("de00") == Some(0xDE00);
    assert 0x1_0000 + (0xD83D - 0xD800) * 0x400 + (0xDE00 - 0xDC00) == 0x1F600;
  }

  /** The body of a string literal up to its closing quote, unescaped, and
      what follows the quote. Raw control characters are rejected. */
  function ReadString(s: string): (r: Option<(string, string)>)
    ensures r.Some? ==> |r.value.1| < |s|
    decreases |s|
  {
    if |s| == 0 then None
    else if s[0] == '"' then Some(("", s[1..]))
    else if s[0] < ' ' then None
    else if s[0] == '\\' then
      var e :- ReadEscape(s[1..]);
      var t :- ReadString(e.1);
      Some(([e.0] + t.0, t.1))
    else
      var t :- ReadString(s[1..]);
      Some(([s[0]] + t.0, t.1))
  }

  lemma ReadEscapeChar(c: char, rest: string)
    requires EscapeChar(c) != [c]
    ensures EscapeChar(c)[0] == '\\'
    ensures ReadEscape(EscapeChar(c)[1..] + rest) == Some((c, rest))
  {
    var e := EscapeChar(c);
    if c == '"' || c == '\\' || c == '\U{8}' || c == '\U{C}' || c == '\n' || c == '\r' || c == '\t' {
      assert (e[1..] + rest)[1..] == rest;
    } else {
      var s := e[1..] + rest;
      var hi := c as int / 16;
      var lo := c as int % 16;
      assert s[0] == 'u' && s[1] == '0' && s[2] == '0';
      assert s[3] == HexDigit(hi) && s[4] == HexDigit(lo);
      assert HexValue(HexDigit(hi)) == Some(hi);
      assert HexValue(HexDigit(lo)) == Some(lo);
      assert s[5..] == rest;
    }
  }

  lemma {:induction false} ReadStringOfEscape(t: string, rest: string)
    ensures ReadString(Escape(t) + "\"" + rest) == Some((t, rest))
  {
    if |t| == 0 {
      assert Escape(t) + "\"" + rest == "\"" + rest;
      assert ("\"" + rest)[1..] == rest;
    } else {
      var c := t[0];
      var tail := Escape(t[1..]) + "\"" + rest;
      assert Escape(t) + "\"" + rest == EscapeChar(c) + tail;
      ReadStringOfEscape(t[1..], rest);
      ReadStringStep(c, tail, t[1..], rest);
      assert [c] + t[1..] == t;
    }
  }

  /** One escaped character in front of a readable string literal body is
      read back as that character. */
  lemma ReadStringStep(c: char, tail: string, t: string, rest: string)
    requires ReadString(tail) == Some((t, rest))
    ensures ReadString(EscapeChar(c) + tail) == Some(([c] + t, rest))
  {
    var s := EscapeChar(c) + tail;
    if EscapeChar(c) == [c] {
      assert s[0] == c && s[1..] == tail;
    } else {
      ReadEscapeChar(c, tail);
      assert s[0] == '\\';
      assert s[1..] == EscapeChar(c)[1..] + tail;
    }
  }

  /** No escape introduces a `;`: the only `;` in an escaped string are
      the string's own. */
  lemma {:induction false} SemicolonInEscape(t: string)
    ensures ';' in Escape(t) <==> ';' in t
  {
    if |t| > 0 {
      SemicolonInEscape(t[1..]);
      assert t == [t[0]] + t[1..];
      var e := EscapeChar(t[0]);
      assert ';' in e <==> t[0] == ';' by {
        if t[0] < ' ' && t[0] != '\U{8}' && t[0] != '\U{C}' && t[0] != '\n' && t[0] != '\r' && t[0] != '\t' {
          assert e == ['\\', 'u', '0', '0', e[4], e[5]];
        }
      }
    }
  }

  // ---------------------------------------------------------------- records

  function BoolText(b: bool): string {
    if b then "true" else "false"
  }

  /** `JSON.stringify` of one record, fields in the order the application
      creates them. */
  function SerialiseTodo(t: Todo): string {
    "{\"id\":" + NatToString(t.id) + TextField(t.text, t.completed)
  }

  /** The serialised record from its `text` field on. */
  function TextField(text: string, completed: bool): string {
    ",\"text\":\"" + Escape(text) + "\"" + DoneField(completed)
  }

  /** The serialised record from its `completed` field on. */
  function DoneField(completed: bool): string {
    ",\"completed\":" + BoolText(completed) + "}"
  }

  function Items(todos: seq<Todo>): string {
    if |todos| == 0 then ""
    else if |todos| == 1 then SerialiseTodo(todos[0])
    else SerialiseTodo(todos[0]) + "," + Items(todos[1..])
  }

  /** `JSON.stringify(todos)`. */
  function Serialise(todos: seq<Todo>): string {
    "[" + Items(todos) + "]"
  }

  /** `s` without the literal prefix `lit`, if it has that prefix. */
  function Expect(s: string, lit: string): (r: Option<string>)
    ensures r.Some? ==> |r.value| == |s| - |lit|
  {
    if StartsWith(s, lit) then Some(s[|lit|..]) else None
  }

  function ReadBool(s: string): (r: Option<(bool, string)>)
    ensures r.Some? ==> |r.value.1| < |s|
  {
    if StartsWith(s, "true") then Some((true, s[4..]))
    else if StartsWith(s, "false") then Some((false, s[5..]))
    else None
  }

  /** One record and what follows it. */
  function ReadTodo(s: string): (r: Option<(Todo, string)>)
    ensures r.Some? ==> |r.value.1| < |s|
  {
    var s1 :- Expect(s, "{\"id\":");
    var id :- ReadNat(s1);
    ReadTextField(id.0, id.1)
  }

  /** The rest of a record after its `id`. */
  function ReadTextField(id: Id, s: string): (r: Option<(Todo, string)>)
    ensures r.Some? ==> |r.value.1| < |s|
  {
    var s2 :- Expect(s, ",\"text\":\"");
    var text :- ReadString(s2);
    ReadDoneField(id, text.0, text.1)
  }

  /** The rest of a record after its `text`. */
  function ReadDoneField(id: Id, text: string, s: string): (r: Option<(Todo, string)>)
    ensures r.Some? ==> |r.value.1| < |s|
  {
    var s3 :- Expect(s, ",\"completed\":");
    var done :- ReadBool(s3);
    var s4 :- Expect(done.1, "}");
    Some((Todo(id, text, done.0), s4))
  }

  /** One or more records separated by `,` and closed by `]` at the end of the text. */
  function ReadItems(s: string): Option<seq<Todo>>
    decreases |s|
  {
    var first :- ReadTodo(s);
    var rest := first.1;
    if rest == "]" then Some([first.0])
    else if |rest| > 0 && rest[0] == ',' then
      var more :- ReadItems(rest[1..]);
      Some([first.0] + more)
    else None
  }

  /** `JSON.parse(s)` for a stored list; `None` where `JSON.parse` throws. */
  function Parse(s: string): Option<seq<Todo>> {
    var body :- Expect(s, "[");
    if body == "]" then Some([]) else ReadItems(body)
  }

  // ---------------------------------------------------------------- round trip

  lemma ExpectLiteral(lit: string, rest: string)
    ensures Expect(lit + rest, lit) == Some(rest)
  {
    assert (lit + rest)[..|lit|] == lit;
  }

  lemma ReadBoolOfText(b: bool, rest: string)
    ensures ReadBool(BoolText(b) + rest) == Some((b, rest))
  {
    assert (BoolText(b) + rest)[..|BoolText(b)|] == BoolText(b);
    if !b {
      assert (BoolText(b) + rest)[..4] != "true" by {
        assert (BoolText(b) + rest)[0] == 'f';
      }
    }
  }

  lemma ReadDoneOfField(id: Id, text: string, b: bool, rest: string)
    ensures ReadDoneField(id, text, DoneField(b) + rest) == Some((Todo(id, text, b), rest))
  {
    var tail := BoolText(b) + ("}" + rest);
    ExpectDoneKey(b, rest);
    ReadBoolOfText(b, "}" + rest);
    ExpectLiteral("}", rest);
    ReadDoneSteps(id, text, DoneField(b) + rest, tail, b, "}" + rest, rest);
  }

  lemma ExpectDoneKey(b: bool, rest: string)
    ensures Expect(DoneField(b) + rest, ",\"completed\":") == Some(BoolText(b) + ("}" + rest))
  {
    var p := ",\"completed\":";
    var tail := BoolText(b) + ("}" + rest);
    assert DoneField(b) + rest == p + tail;
    ExpectLiteral(p, tail);
  }

  lemma ReadDoneSteps(id: Id, text: string, s: string, tail: string, b: bool, after: string, rest: string)
    requires Expect(s, ",\"completed\":") == Some(tail)
    requires ReadBool(tail) == Some((b, after))
    requires Expect(after, "}") == Some(rest)
    ensures ReadDoneField(id, text, s) == Some((Todo(id, text, b), rest))
  {
  }

  lemma ReadTextOfField(id: Id, text: string, b: bool, rest: string)
    ensures ReadTextField(id, TextField(text, b) + rest) == Some((Todo(id, text, b), rest))
  {
    var after := DoneField(b) + rest;
    var tail := Escape(text) + ("\"" + after);
    ExpectTextKey(text, b, rest);
    ReadStringOfEscape(text, after);
    assert Escape(text) + "\"" + after == tail;
    ReadDoneOfField(id, text, b, rest);
    ReadTextSteps(id, TextField(text, b) + rest, tail, text, after, (Todo(id, text, b), rest));
  }

  lemma ExpectTextKey(text: string, b: bool, rest: string)
    ensures Expect(TextField(text, b) + rest, ",\"text\":\"")
            == Some(Escape(text) + ("\"" + (DoneField(b) + rest)))
  {
    var p := ",\"text\":\"";
    var tail := Escape(text) + ("\"" + (DoneField(b) + rest));
    Regroup(p, Escape(text), "\"", DoneField(b), rest);
    ExpectLiteral(p, tail);
  }

  lemma Regroup(a: string, b: string, c: string, d: string, e: string)
    ensures a + b + c + d + e == a + (b + (c + (d + e)))
  {
  }

  lemma ReadTextSteps(id: Id, s: string, tail: string, text: string, after: string, r: (Todo, string))
    requires Expect(s, ",\"text\":\"") == Some(tail)
    requires ReadString(tail) == Some((text, after))
    requires ReadDoneField(id, text, after) == Some(r)
    ensures ReadTextField(id, s) == Some(r)
  {
  }

  lemma FieldStartsWithComma(text: string, b: bool, rest: string)
    ensures |TextField(text, b) + rest| > 0 && (TextField(text, b) + rest)[0] == ','
  {
  }

  lemma ReadTodoOfSerialise(t: Todo, rest: string)
    ensures ReadTodo(SerialiseTodo(t) + rest) == Some((t, rest))
  {
    var after := TextField(t.text, t.completed) + rest;
    var tail := NatToString(t.id) + after;
    ExpectIdKey(t, rest);
    ReadIdOfSerialise(t, rest);
    ReadTextOfField(t.id, t.text, t.completed, rest);
    ReadTodoSteps(SerialiseTodo(t) + rest, tail, t.id, after, (t, rest));
  }

  lemma ExpectIdKey(t: Todo, rest: string)
    ensures Expect(SerialiseTodo(t) + rest, "{\"id\":")
            == Some(NatToString(t.id) + (TextField(t.text, t.completed) + rest))
  {
    var p := "{\"id\":";
    var tail := NatToString(t.id) + (TextField(t.text, t.completed) + rest);
    assert SerialiseTodo(t) + rest == p + tail;
    ExpectLiteral(p, tail);
  }

  lemma ReadIdOfSerialise(t: Todo, rest: string)
    ensures ReadNat(NatToString(t.id) + (TextField(t.text, t.completed) + rest))
            == Some((t.id, TextField(t.text, t.completed) + rest))
  {
    FieldStartsWithComma(t.text, t.completed, rest);
    ReadNatOfNatToString(t.id, TextField(t.text, t.completed) + rest);
  }

  lemma ReadTodoSteps(s: string, tail: string, id: Id, after: string, r: (Todo, string))
    requires Expect(s, "{\"id\":") == Some(tail)
    requires ReadNat(tail) == Some((id, after))
    requires ReadTextField(id, after) == Some(r)
    ensures ReadTodo(s) == Some(r)
  {
  }

  lemma {:induction false} ReadItemsOfItems(todos: seq<Todo>)
    requires |todos| >= 1
    ensures ReadItems(Items(todos) + "]") == Some(todos)
    decreases |todos|
  {
    if |todos| == 1 {
      ReadTodoOfSerialise(todos[0], "]");
      assert [todos[0]] == todos;
    } else {
      ReadItemsOfItems(todos[1..]);
      ItemsCons(todos);
      ReadItemsStep(todos[0], Items(todos[1..]) + "]", todos[1..]);
      HeadTail(todos);
    }
  }

  lemma ItemsCons(todos: seq<Todo>)
    requires |todos| > 1
    ensures Items(todos) + "]" == SerialiseTodo(todos[0]) + ("," + (Items(todos[1..]) + "]"))
  {
    var head, tail := SerialiseTodo(todos[0]), Items(todos[1..]);
    assert Items(todos) == head + "," + tail;
    CommaRegroup(head, tail);
  }

  lemma CommaRegroup(head: string, tail: string)
    ensures (head + "," + tail) + "]" == head + ("," + (tail + "]"))
  {
  }

  lemma HeadTail(todos: seq<Todo>)
    requires |todos| > 0
    ensures [todos[0]] + todos[1..] == todos
  {
  }

  lemma ReadItemsStep(t: Todo, tail: string, more: seq<Todo>)
    requires ReadItems(tail) == Some(more)
    ensures ReadItems(SerialiseTodo(t) + ("," + tail)) == Some([t] + more)
  {
    ReadTodoOfSerialise(t, "," + tail);
    ReadItemsComma(SerialiseTodo(t) + ("," + tail), t, tail, more);
  }

  /** A record followed by a comma continues the list. */
  lemma ReadItemsComma(s: string, t: Todo, tail: string, more: seq<Todo>)
    requires ReadTodo(s) == Some((t, "," + tail)) && ReadItems(tail) == Some(more)
    ensures ReadItems(s) == Some([t] + more)
  {
    assert ("," + tail)[1..] == tail;
  }

  /** Parsing what was serialised gives back the same list. */
  lemma ParseSerialise(todos: seq<Todo>)
    ensures Parse(Serialise(todos)) == Some(todos)
  {
    ExpectLiteral("[", Items(todos) + "]");
    assert Serialise(todos) == "[" + (Items(todos) + "]");
    if |todos| > 0 {
      ReadItemsOfItems(todos);
      assert Items(todos) + "]" != "]" by {
        assert |Items(todos)| > 0 by {
          assert Items(todos)[0] == '{';
        }
      }
    }
  }

  /** The serialised list holds a `;` exactly when some record's text does. */
  lemma {:induction false} SemicolonInSerialise(todos: seq<Todo>)
    ensures ';' in Serialise(todos) <==> exists i :: 0 <= i < |todos| && ';' in todos[i].text
  {
    SemicolonInItems(todos);
  }

  lemma {:induction false} SemicolonInItems(todos: seq<Todo>)
    ensures ';' in Items(todos) <==> exists i :: 0 <= i < |todos| && ';' in todos[i].text
  {
    if |todos| > 0 {
      SemicolonInTodo(todos[0]);
      if |todos| > 1 {
        SemicolonInItems(todos[1..]);
        assert forall i :: 1 <= i < |todos| ==> todos[i] == todos[1..][i - 1];
        assert ';' in Items(todos) <==> ';' in SerialiseTodo(todos[0]) || ';' in Items(todos[1..]);
      }
    }
  }

  lemma SemicolonInTodo(t: Todo)
    ensures ';' in SerialiseTodo(t) <==> ';' in t.text
  {
    SemicolonInEscape(t.text);
    var n := NatToString(t.id);
    assert ';' !in n;
    assert ';' !in BoolText(t.completed);
  }

  /** The serialised list is framed by brackets, so `trim` leaves it alone. */
  lemma SerialiseIsFramed(todos: seq<Todo>)
    ensures |Serialise(todos)| >= 2
    ensures Serialise(todos)[0] == '[' && Serialise(todos)[|Serialise(todos)| - 1] == ']'
  {
  }
}

=== FILE: text.dfy ===
/** The string primitives of JavaScript that the application relies on:
    white space as `String.prototype.trim` and the regular-expression class
    `\s` see it, `trim`, `startsWith`, `includes`, and `length` counted in
    UTF-16 code units. */
module Text {

  /** White space and line terminators in the sense of ECMAScript
      (WhiteSpace and LineTerminator productions). */
  predicate IsSpace(c: char) {
    || c == '\t' || c == '\n' || c == '\U{B}' || c == '\U{C}' || c == '\r' || c == ' '
    || c == '\U{A0}' || c == '\U{1680}' || ('\U{2000}' <= c <= '\U{200A}')
    || c == '\U{2028}' || c == '\U{2029}' || c == '\U{202F}' || c == '\U{205F}'
    || c == '\U{3000}' || c == '\U{FEFF}'
  }

  predicate AllSpace(s: string) {
    forall i :: 0 <= i < |s| ==> IsSpace(s[i])
  }

  /** Neither end of `s` is white space (the empty string qualifies). */
  predicate Trimmed(s: string) {
    s == [] || (!IsSpace(s[0]) && !IsSpace(s[|s| - 1]))
  }

  /** Drops leading white space: the result is the suffix of `s` that starts
      at its first non-space character. */
  function TrimStart(s: string): (r: string)
    ensures |r| <= |s| && r == s[|s| - |r|..]
    ensures r == [] || !IsSpace(r[0])
  {
    if |s| > 0 && IsSpace(s[0]) then TrimStart(s[1..]) else s
  }

  lemma {:induction false} TrimStartDropsSpace(s: string)
    ensures AllSpace(s[..|s| - |TrimStart(s)|])
  {
    if |s| > 0 && IsSpace(s[0]) {
      TrimStartDropsSpace(s[1..]);
      assert s[..|s| - |TrimStart(s)|] == [s[0]] + s[1..][..|s| - 1 - |TrimStart(s[1..])|];
    }
  }

  /** Drops trailing white space: the result is the prefix of `s` that ends
      at its last non-space character. */
  function TrimEnd(s: string): (r: string)
    ensures |r| <= |s| && r == s[..|r|]
    ensures r == [] || !IsSpace(r[|r| - 1])
  {
    if |s| > 0 && IsSpace(s[|s| - 1]) then TrimEnd(s[..|s| - 1]) else s
  }

  lemma {:induction false} TrimEndDropsSpace(s: string)
    ensures AllSpace(s[|TrimEnd(s)|..])
  {
    if |s| > 0 && IsSpace(s[|s| - 1]) {
      var r := TrimEnd(s[..|s| - 1]);
      TrimEndDropsSpace(s[..|s| - 1]);
      assert s[|r|..] == s[..|s| - 1][|r|..] + [s[|s| - 1]];
    }
  }

  /** `s.trim()`: the infix of `s` left once white space is removed from
      both ends. */
  function Trim(s: string): (r: string)
    ensures Trimmed(r)
  {
    TrimEnd(TrimStart(s))
  }

  /** What `trim` removes is white space at the two ends and nothing else. */
  lemma TrimIsInfix(s: string)
    ensures exists a, b :: 0 <= a <= b <= |s| && Trim(s) == s[a..b]
                           && AllSpace(s[..a]) && AllSpace(s[b..])
  {
    var t := TrimStart(s);
    var r := TrimEnd(t);
    var a := |s| - |t|;
    TrimStartDropsSpace(s);
    TrimEndDropsSpace(t);
    assert r == s[a..a + |r|];
    assert s[a + |r|..] == t[|r|..];
  }

  /** A string that already has no white space at either end is its own trim. */
  lemma TrimOfTrimmed(s: string)
    requires Trimmed(s)
    ensures Trim(s) == s
  {
  }

  /** `!s.trim()`: the trimmed string is empty, which happens exactly when
      every character of `s` is white space. */
  predicate IsBlank(s: string) {
    Trim(s) == []
  }

  lemma {:induction false} BlankIffAllSpace(s: string)
    ensures IsBlank(s) <==> AllSpace(s)
  {
    var t := TrimStart(s);
    if AllSpace(s) {
      TrimStartOfSpace(s);
    } else {
      TrimStartDropsSpace(s);
      assert t != [] by {
        var i :| 0 <= i < |s| && !IsSpace(s[i]);
        var pre := s[..|s| - |t|];
        assert forall j :: 0 <= j < |pre| ==> pre[j] == s[j];
        assert i >= |pre|;
      }
      TrimEndKeepsHead(t);
    }
  }

  lemma {:induction false} TrimEndKeepsHead(t: string)
    requires t != [] && !IsSpace(t[0])
    ensures TrimEnd(t) != []
  {
    if |t| > 1 && IsSpace(t[|t| - 1]) {
      TrimEndKeepsHead(t[..|t| - 1]);
    }
  }

  lemma {:induction false} TrimStartOfSpace(s: string)
    requires AllSpace(s)
    ensures TrimStart(s) == []
  {
    if |s| > 0 {
      assert AllSpace(s[1..]) by {
        assert forall j :: 0 <= j < |s| - 1 ==> s[1..][j] == s[j + 1];
      }
      TrimStartOfSpace(s[1..]);
    }
  }

  /** `s.startsWith(p)`. */
  predicate StartsWith(s: string, p: string) {
    |p| <= |s| && s[..|p|] == p
  }

  /** `s.includes(sub)`, decided by trying every start position in turn. */
  predicate Contains(s: string, sub: string)
    decreases |s|
  {
    StartsWith(s, sub) || (|s| > 0 && Contains(s[1..], sub))
  }

  /** `sub` occurs in `s` at some position. */
  ghost predicate OccursIn(sub: string, s: string) {
    exists i :: OccursAt(sub, s, i)
  }

  ghost predicate OccursAt(sub: string, s: string, i: int) {
    0 <= i && i + |sub| <= |s| && s[i..i + |sub|] == sub
  }

  lemma {:induction false} ContainsIffOccurs(s: string, sub: string)
    ensures Contains(s, sub) <==> OccursIn(sub, s)
    decreases |s|
  {
    if StartsWith(s, sub) {
      assert OccursAt(sub, s, 0);
    } else if |s| == 0 {
    } else {
      ContainsIffOccurs(s[1..], sub);
      if OccursIn(sub, s[1..]) {
        var i :| OccursAt(sub, s[1..], i);
        var a, b := s[i + 1..i + 1 + |sub|], s[1..][i..i + |sub|];
        assert forall k :: 0 <= k < |sub| ==> a[k] == b[k];
        assert a == b;
        assert OccursAt(sub, s, i + 1);
      }
      if OccursIn(sub, s) {
        var i :| OccursAt(sub, s, i);
        assert i != 0;
        var a, b := s[1..][i - 1..i - 1 + |sub|], s[i..i + |sub|];
        assert forall k :: 0 <= k < |sub| ==> a[k] == b[k];
        assert a == b;
        assert OccursAt(sub, s[1..], i - 1);
      }
    }
  }

  /** `s.length`: characters outside the Basic Multilingual Plane take two
      UTF-16 code units. */
  function Utf16Length(s: string): (n: nat)
    ensures |s| <= n <= 2 * |s|
  {
    if |s| == 0 then 0
    else (if s[0] as int > 0xFFFF then 2 else 1) + Utf16Length(s[1..])
  }

  /** Number of occurrences of `c` in `s`. */
  function Count(s: string, c: char): (n: nat)
    ensures n <= |s|
    ensures n == 0 <==> c !in s
  {
    if |s| == 0 then 0
    else (if s[0] == c then 1 else 0) + Count(s[1..], c)
  }

  lemma {:induction false} CountAppend(a: string, b: string, c: char)
    ensures Count(a + b, c) == Count(a, c) + Count(b, c)
  {
    if |a| == 0 {
      assert a + b == b;
    } else {
      assert (a + b)[1..] == a[1..] + b;
      CountAppend(a[1..], b, c);
    }
  }
}

=== FILE: todo_form.dfy ===
/** The `TodoForm` component: the input text and the error message, and the
    submit handler that guards against blank entries. */
module TodoForm {
  import opened Wrappers
  import opened Text
  import opened TodoList
  import App

  datatype Form = Form(text: string, error: string)

  /** The new form state and the text passed to `onAdd`, if any. */
  datatype Submission = Submission(form: Form, added: Option<string>)

  const EmptyTodo := "Todo cannot be empty."

  /** `handleSubmit`: a text that is not blank is passed up untrimmed and
      both fields are cleared; a blank one passes nothing up, keeps the text
      and shows the error. */
  function Submit(f: Form): (r: Submission)
    ensures r.added.Some? <==> !IsBlank(f.text)
    ensures r.added.Some? ==> r.added.value == f.text && r.form == Form("", "")
    ensures r.added.None? ==> r.form == Form(f.text, EmptyTodo)
  {
    if !IsBlank(f.text) then Submission(Form("", ""), Some(f.text))
    else Submission(f.(error := EmptyTodo), None)
  }

  /** Typing replaces the text and leaves the error as it is. */
  function Type(f: Form, text: string): (r: Form)
    ensures r.text == text && r.error == f.error
  {
    f.(text := text)
  }

  /** A text of white space only, such as `"   "`, is refused. */
  lemma SpacesAreRefused()
    ensures Submit(Form("   ", "")).added.None?
  {
    BlankIffAllSpace("   ");
  }

  /** What the form passes on always gets past the store's own blank test,
      so in guest mode it always lands at the end of the list. */
  lemma {:induction false} SubmittedTextIsAdded(f: Form, s: App.Store, id: Id, expiry: string)
    requires s.guestMode && Submit(f).added.Some?
    ensures App.AddTodo(s, None, Submit(f).added.value, id, expiry, App.Failed("")).store.todos
            == s.todos + [Todo(id, f.text, false)]
  {
  }
}

=== FILE: todo_item.dfy ===
/** The `TodoItem` component as a small state machine: viewing or editing
    one record, with the draft text of the edit box. Each handler returns
    the new state and the callback it fires, if any. */
module TodoItem {
  import opened Wrappers
  import opened Text
  import opened TodoList
  import App

  /** `todo` is the record passed in by the parent; `editing` and `draft`
      are the component's `isEditing` and `editText`. */
  datatype Item = Item(todo: Todo, editing: bool, draft: string)

  /** A callback to the parent: `onUpdate(record)` or `onDelete(id)`. */
  datatype Notice = OnUpdate(record: Todo) | OnDelete(id: Id)

  datatype Reaction = Reaction(item: Item, notice: Option<Notice>)

  /** The state on mount: viewing, with the draft set to the record's text. */
  function Mount(todo: Todo): (r: Item)
    ensures !r.editing && r.draft == todo.text && r.todo == todo
  {
    Item(todo, false, todo.text)
  }

  /** `handleEdit`. */
  function Edit(s: Item): (r: Item)
    ensures r.editing && r.todo == s.todo && r.draft == s.draft
  {
    s.(editing := true)
  }

  /** Typing into the edit box. */
  function Type(s: Item, text: string): (r: Item)
    ensures r.draft == text && r.todo == s.todo && r.editing == s.editing
  {
    s.(draft := text)
  }

  /** `handleSave`: a blank draft fires nothing and stays in edit mode; any
      other draft is sent as the record with only its text replaced, and
      editing ends. */
  function Save(s: Item): (r: Reaction)
    ensures r.notice.Some? <==> !IsBlank(s.draft)
    ensures r.notice.Some? ==> r.notice.value == OnUpdate(Todo(s.todo.id, s.draft, s.todo.completed))
    ensures r.notice.None? ==> r.item == s
    ensures r.notice.Some? ==> !r.item.editing && r.item.draft == s.draft && r.item.todo == s.todo
  {
    if !IsBlank(s.draft) then Reaction(s.(editing := false), Some(OnUpdate(s.todo.(text := s.draft))))
    else Reaction(s, None)
  }

  /** `handleCancel`: the draft goes back to the record's text and editing ends. */
  function Cancel(s: Item): (r: Item)
    ensures !r.editing && r.draft == s.todo.text && r.todo == s.todo
  {
    s.(draft := s.todo.text, editing := false)
  }

  /** The checkbox: the record with `completed` negated and nothing else changed. */
  function Toggle(s: Item): (r: Reaction)
    ensures r.item == s
    ensures r.notice == Some(OnUpdate(Todo(s.todo.id, s.todo.text, !s.todo.completed)))
  {
    Reaction(s, Some(OnUpdate(s.todo.(completed := !s.todo.completed))))
  }

  /** The delete button: the record's id is passed up. */
  function Remove(s: Item): (r: Reaction)
    ensures r.item == s && r.notice == Some(OnDelete(s.todo.id))
  {
    Reaction(s, Some(OnDelete(s.todo.id)))
  }

  /** Cancelling an edit and starting again shows the record's own text,
      whatever was typed before. */
  lemma CancelDiscardsDraft(s: Item, typed: string)
    ensures Edit(Cancel(Type(s, typed))).draft == s.todo.text
  {
  }

  /** A toggle delivered to the guest store replaces every record with the
      item's id by the item's record with `completed` negated, and changes
      nothing else in the list; with one record per id, that flips its
      `completed`. */
  lemma {:induction false} ToggleInGuestMode(s: Item, store: App.Store, expiry: string)
    requires store.guestMode
    ensures var after := App.UpdateTodo(store, None, Toggle(s).notice.value.record, expiry, App.Failed("")).store;
            && |after.todos| == |store.todos|
            && (forall i :: 0 <= i < |store.todos| && store.todos[i].id == s.todo.id ==>
                  after.todos[i] == Todo(s.todo.id, s.todo.text, !s.todo.completed))
            && (forall i :: 0 <= i < |store.todos| && store.todos[i].id != s.todo.id ==>
                  after.todos[i] == store.todos[i])
  {
  }

  /** A saved edit never stores a blank text. */
  lemma SavedTextIsNeverBlank(s: Item)
    requires Save(s).notice.Some?
    ensures !IsBlank(Save(s).notice.value.record.text)
  {
  }
}

=== FILE: todo_list.dfy ===
/** The todo record and the three list transforms `App` applies to its
    in-memory list: append (`[...todos, t]`), replace by id
    (`todos.map(...)`) and remove by id (`todos.filter(...)`). */
module TodoList {

  /** Record identifiers: the numbers `Date.now()` yields for guest records,
      or the key the remote store assigns. */
  type Id = nat

  datatype Todo = Todo(id: Id, text: string, completed: bool)

  /** `todos.map(todo => todo.id === u.id ? u : todo)`. */
  function ReplaceById(todos: seq<Todo>, u: Todo): (r: seq<Todo>)
    ensures |r| == |todos|
    ensures forall i :: 0 <= i < |todos| && todos[i].id == u.id ==> r[i] == u
    ensures forall i :: 0 <= i < |todos| && todos[i].id != u.id ==> r[i] == todos[i]
  {
    if |todos| == 0 then []
    else [if todos[0].id == u.id then u else todos[0]] + ReplaceById(todos[1..], u)
  }

  /** `todos.filter(todo => todo.id !== id)`. */
  function RemoveById(todos: seq<Todo>, id: Id): (r: seq<Todo>)
    ensures forall t :: t in r <==> t in todos && t.id != id
    ensures |r| == |todos| - CountId(todos, id)
    ensures Subsequence(r, todos)
  {
    if |todos| == 0 then []
    else if todos[0].id == id then RemoveById(todos[1..], id)
    else [todos[0]] + RemoveById(todos[1..], id)
  }

  /** How many records of `todos` carry `id`. */
  function CountId(todos: seq<Todo>, id: Id): (n: nat)
    ensures n <= |todos|
  {
    if |todos| == 0 then 0
    else (if todos[0].id == id then 1 else 0) + CountId(todos[1..], id)
  }

  /** `a` is `b` with some records left out and the rest in their order. */
  predicate Subsequence<T(==)>(a: seq<T>, b: seq<T>)
    decreases |b|
  {
    if |a| == 0 then true
    else if |b| == 0 then false
    else if a[0] == b[0] then Subsequence(a[1..], b[1..])
    else Subsequence(a, b[1..])
  }

  /** The ids the list carries. */
  function Ids(todos: seq<Todo>): (r: seq<Id>)
    ensures |r| == |todos|
    ensures forall i :: 0 <= i < |todos| ==> r[i] == todos[i].id
  {
    if |todos| == 0 then [] else [todos[0].id] + Ids(todos[1..])
  }

  /** Replacing with a record whose id is absent leaves the list as it was. */
  lemma ReplaceAbsentIsIdentity(todos: seq<Todo>, u: Todo)
    requires u.id !in Ids(todos)
    ensures ReplaceById(todos, u) == todos
  {
    assert forall i :: 0 <= i < |todos| ==> todos[i].id in Ids(todos);
  }

  /** Removing an id twice is the same as removing it once. */
  lemma {:induction false} RemoveIdempotent(todos: seq<Todo>, id: Id)
    ensures RemoveById(RemoveById(todos, id), id) == RemoveById(todos, id)
  {
    var r := RemoveById(todos, id);
    NoneLeftToRemove(r, id);
  }

  /** A list none of whose records carries `id` is unchanged by removal. */
  lemma {:induction false} NoneLeftToRemove(todos: seq<Todo>, id: Id)
    requires forall t :: t in todos ==> t.id != id
    ensures RemoveById(todos, id) == todos
  {
    if |todos| > 0 {
      assert todos[0] in todos;
      assert forall t :: t in todos[1..] ==> t in todos;
      NoneLeftToRemove(todos[1..], id);
      assert [todos[0]] + todos[1..] == todos;
    }
  }

  /** Removal distributes over concatenation: each part loses its own
      matching records and keeps its order. */
  lemma {:induction false} RemoveAppend(a: seq<Todo>, b: seq<Todo>, id: Id)
    ensures RemoveById(a + b, id) == RemoveById(a, id) + RemoveById(b, id)
  {
    if |a| == 0 {
      assert a + b == b;
    } else {
      assert (a + b)[0] == a[0];
      assert (a + b)[1..] == a[1..] + b;
      RemoveAppend(a[1..], b, id);
    }
  }

  /** A replace followed by a remove of the same id is just the remove:
      replacing touches no record outside that id. */
  lemma {:induction false} RemoveAfterReplace(todos: seq<Todo>, u: Todo)
    ensures RemoveById(ReplaceById(todos, u), u.id) == RemoveById(todos, u.id)
  {
    if |todos| > 0 {
      var r := ReplaceById(todos, u);
      assert r[1..] == ReplaceById(todos[1..], u);
      RemoveAfterReplace(todos[1..], u);
    }
  }
}

=== FILE: wrappers.dfy ===
/** Failure-compatible Option, used for JavaScript's `null` results and for
    readers that may fail. */
module Wrappers {

  datatype Option<+T> = None | Some(value: T) {

    predicate IsFailure() {
      None?
    }

    function PropagateFailure<U>(): Option<U>
      requires None?
    {
      None
    }

    function Extract(): T
      requires Some?
    {
      value
    }
  }
}
